=== FILE: README.md ===
# NachOS user-program core, modelled in Dafny

This project models the user-program side of a NachOS teaching kernel:

- the physical frame provider and its bitmap;
- address spaces, with their thread lists, thread stacks and page tables;
- the thread and process system calls;
- the kernel's semaphores, locks and condition variables;
- the string copies between kernel and user memory;
- the synchronised console's string and number loops;
- the default shell's command decoder and directory prompt;
- the `memset`/`memcpy`/`memmove` helpers that user programs link against.

Every system call is one atomic transition on immutable records. A call that
would block in the kernel ends in a *sleeping* state, and a separate
*resume* function describes what happens when the thread wakes. The kernel's
global process table (`processTable`, `processLocks`, `processConds`,
`numProcess`) is one `Kernel.ProcessTable` value. `numProcess` is an
unsigned 32-bit counter and wraps explicitly.

Randomness and console input are parameters:

- `Random()` is an oracle `nat -> nat` read from a cursor.
- The console's input stream is an oracle `nat -> char` read from a cursor.

User memory has two forms:

- For the kernel's string copies, it is a partial map from virtual address to
  character. An address outside the map is one that `ReadMem`/`WriteMem`
  refuse.
- For the libgcc helpers, it is a sequence of bytes indexed by pointer.

`PageSize` is left symbolic: any positive value up to 524, so that
`UserThreadMax >= 1` (the address-space operations require that). The stack
constants are the source's own:

- `UserStackSize` = 1048;
- one thread stack = 2 pages;
- `UserThreadMax` = 1048 / (2 · PageSize).

Files:

- `opt.dfy`: `Option`.
- `cstrings.dfy`: C strings in a buffer.
- `synch.dfy`: semaphores, locks, Mesa condition variables.
- `machine.dfy`: bytes, `PageSize`, zeroing a frame.
- `bitmap.dfy`: the bitmap.
- `frames.dfy`: the frame provider.
- `kernel.dfy`: the process table.
- `addrspace.dfy`: address spaces.
- `machinestrings.dfy`: kernel/user string copies.
- `userthread.dfy`: thread calls.
- `userprocess.dfy`: process calls.
- `console.dfy`: the synchronised console.
- `shell.dfy`: the shell.
- `libgcc.dfy`: the byte helpers.

## Model

| member | source | states |
|---|---|---|
| Synch.NewSemaphore | code/threads/synch.cc:36-40 | a new semaphore holds its initial value and has no sleepers |
| Synch.P | code/threads/synch.cc:60-71 | P proceeds exactly when the value is non-zero and then takes one unit; otherwise the caller joins the end of the queue with the value left at 0 |
| Synch.V | code/threads/synch.cc:81-90 | V adds one unit and moves the first sleeper, if any, off the front of the queue, leaving the rest in order |
| Synch.VDoesNotHandOff | code/threads/synch.cc:60-90 | after V wakes a sleeper, another thread's P can take the unit before the woken thread runs, and that thread is still off the queue |
| Synch.RunAccounting | code/threads/synch.cc:60-90 | over any sequence of P and V calls, the value never goes negative and equals the initial value plus completed V's minus completed P's |
| Synch.NewLock | code/threads/synch.cc:108-113 | a new lock has no owner and both inner semaphores at 1 |
| Synch.Held | code/threads/synch.cc:136-144 | the lock state of a thread that took a free lock is valid, owned by that thread, and has nobody waiting |
| Synch.Acquire | code/threads/synch.cc:136-144 | on a valid lock, Acquire proceeds exactly when the lock has no owner and makes the caller the owner; otherwise the caller queues on the lock and ownership is unchanged; validity is kept |
| Synch.Release | code/threads/synch.cc:155-164 | a release by a non-owner changes nothing; a release by the owner clears the owner and gives back the entry unit, keeping the lock valid |
| Synch.MutualExclusion | code/threads/synch.cc:136-144 | while a lock is held, any other Acquire sleeps and the owner stays the same |
| Synch.AcquireReleaseIdle | code/threads/synch.cc:136-164 | taking a free lock and releasing it restores the free lock exactly |
| Synch.RunLockValid | code/threads/synch.cc:108-164 | every sequence of Acquire and Release calls from a new lock leaves a valid lock |
| Synch.NewCondition | code/threads/synch.cc:176-181 | a new condition has no waiters and a sleep semaphore at 0 |
| Synch.Wait | code/threads/synch.cc:195-203 | Wait counts the caller as a waiter, releases the caller's lock, and sleeps exactly when no signal is pending |
| Synch.Resume | code/threads/synch.cc:195-203 | a woken waiter sleeps again until a unit is available, then reacquires the lock, keeping it valid |
| Synch.Signal | code/threads/synch.cc:219-230 | Signal with no waiter changes nothing; with waiters it decrements the count and releases one sleeper, dropping and retaking the caller's lock |
| Synch.SignalNotRemembered | code/threads/synch.cc:219-230 | a Signal given when nobody waits is lost: a later Wait still sleeps |
| Synch.Broadcast | code/threads/synch.cc:246-255 | Broadcast releases exactly as many sleepers as were counted, resets the count, and leaves the caller holding a valid lock |
| Synch.BroadcastWakesFirst | code/threads/synch.cc:246-255 | Broadcast wakes the first sleepers of the condition's queue, as many as were counted and in queue order, and each of its lock rounds wakes the head of the lock's queue |
| Synch.WaitWhile | code/threads/synch.cc:195-203 | a guarded Mesa wait returns with the lock released when the guard is false and otherwise waits; a held idle lock returns to idle |
| Synch.ResumeWhile | code/threads/synch.cc:195-203 | a woken guarded waiter re-checks its guard: it sleeps again while the guard holds and returns with the lock released once it does not |
| BitMaps.NumWords | code/userprog/bitmap.h:63-68 | the word count is the least number of 32-bit words that covers the bits |
| BitMaps.New | code/userprog/bitmap.h:41-42 | a new bitmap has the requested number of bits, all clear |
| BitMaps.Mark | code/userprog/bitmap.h:45 | Mark sets exactly one bit, and the clear count drops by one exactly when that bit was clear |
| BitMaps.Clear | code/userprog/bitmap.h:46 | Clear resets exactly one bit, and the clear count rises by one exactly when that bit was set |
| BitMaps.Find | code/userprog/bitmap.h:48-50 | Find fails exactly when no bit is clear; otherwise it returns the lowest clear bit and marks it |
| BitMaps.ZeroCountAllSet | code/userprog/bitmap.h:51 | the clear count is zero exactly when every bit is set |
| BitMaps.NumClearIsClearBits | code/userprog/bitmap.h:51 | the clear count is the number of distinct clear bit indices |
| BitMaps.TestAfterMarkClear | code/userprog/bitmap.h:45-47 | after Mark or Clear, Test reads the changed bit as set or clear and every other bit as before |
| BitMaps.MarkClearRoundTrip | code/userprog/bitmap.h:45-46 | clearing a bit that was just marked from clear gives back the original bitmap |
| Frames.NewProvider | code/userprog/frameprovider.cc:20-29 | a new provider has the requested frames, with frame 0 reserved and every other frame free |
| Frames.IsFrameAvail | code/userprog/frameprovider.cc:140-143 | true exactly when some frame is free |
| Frames.NumAvailFrameCountsFree | code/userprog/frameprovider.cc:120-143 | the available count is the number of free frames, and IsFrameAvail holds exactly when it is positive |
| Frames.ScanSelectsLastHit | code/userprog/frameprovider.cc:68-77 | the random scan counts every free frame and keeps the last free frame whose random draw selected it, falling back to none exactly when no frame is free |
| Frames.GetEmptyFrame | code/userprog/frameprovider.cc:61-89 | allocation fails exactly when no frame is free; otherwise it returns a frame that was free, marks it used, and zeroes exactly that frame's bytes; one draw is used per free frame |
| Frames.ReleaseFrame | code/userprog/frameprovider.cc:102-107 | release frees exactly that frame, and the free count rises only if it was in use |
| Frames.AllocationSucceedsWhenAvailable | code/userprog/frameprovider.cc:61-89 | when IsFrameAvail holds, GetEmptyFrame returns a frame |
| Frames.NoFrameTwice | code/userprog/frameprovider.cc:61-89 | a frame just handed out is in use, so a second allocation cannot return it |
| Frames.AllocateReleaseRoundTrip | code/userprog/frameprovider.cc:61-107 | releasing the frame just allocated restores the provider's bitmap |
| AddrSpaces.IndexOf | code/userprog/addrspace.cc:323-340 | the position of the first occurrence of a thread id, or -1 exactly when it is absent |
| AddrSpaces.HasThread | code/userprog/addrspace.cc:347-354 | true exactly when the id is in the space's thread list |
| AddrSpaces.AddThread | code/userprog/addrspace.cc:307-312 | an id already present leaves the space unchanged; otherwise it is appended; the list stays free of duplicates |
| AddrSpaces.AddThreadIdempotent | code/userprog/addrspace.cc:307-312 | adding the same thread twice is the same as adding it once |
| AddrSpaces.RemoveAt | code/userprog/addrspace.cc:329-333 | removing one position keeps the order of the others and removes exactly one copy of that element |
| AddrSpaces.RemoveAtNoDuplicates | code/userprog/addrspace.cc:329-333 | removing from a duplicate-free list keeps it duplicate-free and the removed id gone |
| AddrSpaces.RemoveThread | code/userprog/addrspace.cc:323-340 | an absent id changes nothing; a present id is removed, and its join condition and the exit condition are broadcast while the table lock stays with the caller |
| AddrSpaces.AddRemoveRoundTrip | code/userprog/addrspace.cc:307-340 | removing a thread that was just added gives back the original thread list |
| AddrSpaces.GetNextThreadID | code/userprog/addrspace.cc:362-367 | returns the current counter and advances it by one, changing nothing else |
| AddrSpaces.IssuedIdsIncrease | code/userprog/addrspace.cc:362-367 | successive thread ids are consecutive and strictly increasing, so no id is issued twice |
| AddrSpaces.SlotOfStackPointer | code/userprog/addrspace.cc:377-398 | the slot recovered from a slot's stack pointer is that slot |
| AddrSpaces.StacksFit | code/userprog/addrspace.cc:27-28 | every one of the UserThreadMax thread stacks lies within the user stack area |
| AddrSpaces.StacksDisjoint | code/userprog/addrspace.cc:377-385 | stacks of different slots do not overlap: each lies a whole thread stack below the previous one |
| AddrSpaces.GetStackPointer | code/userprog/addrspace.cc:377-385 | fails exactly when all stack slots are taken; otherwise it claims the lowest free slot and returns its stack pointer |
| AddrSpaces.RemoveStackPointer | code/userprog/addrspace.cc:394-398 | frees exactly the slot the stack pointer belongs to and changes nothing else |
| AddrSpaces.StackRoundTrip | code/userprog/addrspace.cc:377-398 | giving back a stack pointer just handed out restores the stack bitmap |
| AddrSpaces.FirstUnclaimed | code/userprog/addrspace.cc:256-267 | the first process-table slot from a position that is not taken, or -1 when all are taken |
| AddrSpaces.ClaimSlot | code/userprog/addrspace.cc:256-267 | no id is found exactly when slots 1 to 63 are all taken; otherwise the lowest free slot is marked taken under its process lock and becomes the process id |
| AddrSpaces.InitSpaceSetup | code/userprog/addrspace.cc:240-279 | a new space has only the main thread, the next id 1, UserThreadMax - 1 as its thread limit, all stack slots free, and the process id from ClaimSlot |
| AddrSpaces.FirstIdIsMainThread | code/userprog/addrspace.cc:240-268 | the first id handed to a created thread equals the main thread's id 1 |
| AddrSpaces.NumPagesFor | code/userprog/addrspace.cc:82-87 | the page count is the least number of pages covering code, data, bss and the user stack |
| AddrSpaces.AllocatePages | code/userprog/addrspace.cc:109-125 | each virtual page maps to a distinct frame that was free and is now in use, and exactly those frames become used |
| AddrSpaces.FreeFrames | code/userprog/addrspace.cc:471-480 | exactly the frames of valid page-table entries become free; every other frame is unchanged |
| AddrSpaces.NewAddrSpace | code/userprog/addrspace.cc:69-147 | construction fails exactly when fewer frames are free than pages needed; otherwise the space has its page table and the set-up state |
| AddrSpaces.ConstructFreeRoundTrip | code/userprog/addrspace.cc:69-168 | freeing a newly built space's frames gives the frame bitmap back as it was |
| MachineStrings.FromLength | code/userprog/addrspace.cc:505-519 | how many characters the copy reads: stops at the limit, at an unreadable address, or at a '\0' |
| MachineStrings.MachineString | code/userprog/addrspace.cc:505-519 | the string read from user memory has no '\0' and is shorter than the buffer |
| MachineStrings.CopyStringFromMachine | code/userprog/addrspace.cc:505-519 | the kernel buffer holds the readable characters up to '\0' or size - 1, then a terminator, so its C string is that string |
| MachineStrings.ToLength | code/userprog/addrspace.cc:535-547 | how many characters are written before the terminator: the source's length up to the cap |
| MachineStrings.FirstUnwritable | code/userprog/addrspace.cc:539-546 | the first address the write loop cannot write, if any |
| MachineStrings.CopyStringToMachine | code/userprog/addrspace.cc:535-547 | with the cap at size - 1, or 2^32 - 1 when the unsigned size 0 wraps: returns -1 exactly when an address is unwritable, keeping the characters written before it; otherwise the string and its terminator are stored and their length returned; no address is added to memory |
| MachineStrings.ZeroSizeCopiesWholeString | code/userprog/addrspace.cc:535-538 | with size 0 the copy is not capped: the whole C string of the source is copied |
| MachineStrings.ReadBackStored | code/userprog/addrspace.cc:505-547 | reading back a stored string with a large enough buffer gives the string |
| MachineStrings.StringRoundTrip | code/userprog/addrspace.cc:505-547 | copying a kernel string to user memory and back gives the C string, cut to size - 1 characters |
| UserThreads.InitRegisters | code/userprog/addrspace.cc:180-198 | the main thread starts at address 0 with NextPC at 4, the stack pointer 16 bytes below the top of the space, and every other register zero |
| UserThreads.StartRegisters | code/userprog/userthread.cc:23-38 | a new thread starts at its function with its argument, its return address and its own stack pointer; other registers are zero |
| UserThreads.CreateStack | code/userprog/userthread.cc:79-96 | when the stack lock is busy the creator sleeps; when no stack is left the id stays in the thread list and -1 is returned; otherwise the thread gets a stack slot |
| UserThreads.Create | code/userprog/userthread.cc:62-96 | rejected exactly when the thread limit would be passed; otherwise a fresh id is added to the space |
| UserThreads.CreateStartsThread | code/userprog/userthread.cc:62-96 | an accepted creation with a free stack starts the thread under a fresh id |
| UserThreads.NoStackLeaks | code/userprog/userthread.cc:79-84 | with no free stack the call returns -1 but leaves the new id in the thread list and the stack lock held |
| UserThreads.MainThreadSlotPastStacks | code/userprog/addrspace.cc:394-398 | for the main thread's stack pointer 0, the computed slot is outside the stack bitmap once the space exceeds UserThreadMax stacks |
| UserThreads.ExitStack | code/userprog/userthread.cc:119-121 | the exiting thread's stack slot is freed under the stack lock |
| UserThreads.ExitTable | code/userprog/userthread.cc:115-117 | the exiting thread leaves the thread list, and its joiners and the exit waiters are released |
| UserThreads.ExitThread | code/userprog/userthread.cc:111-126 | after exit the thread is gone from the list; on completion exactly its stack slot's bit is cleared, and the page table, size, process id and id counter are unchanged |
| UserThreads.Join | code/userprog/userthread.cc:144-158 | joining oneself or a thread not in the list returns -1 at once; otherwise the joiner waits on the target's join condition |
| UserThreads.JoinResume | code/userprog/userthread.cc:151-157 | a woken joiner returns 0 only once the target has left the list and a release is pending |
| UserThreads.ExitReleasesJoiner | code/userprog/userthread.cc:111-158 | when a thread exits while another waits to join it, the waiter's resume returns 0 |
| UserThreads.CreatedIdPastJoinConditions | code/userprog/addrspace.cc:362-367 | ids only grow, so once the counter reaches UserThreadMax an accepted create registers a live thread whose id has no join condition |
| UserProcesses.Inc32 | code/threads/system.h:48 | incrementing the unsigned 32-bit process count wraps to 0 past the top |
| UserProcesses.Dec32 | code/threads/system.h:48 | decrementing the unsigned 32-bit process count wraps below 0 |
| UserProcesses.ProcessCreate | code/userprog/userprocess.cc:51-80 | creation fails exactly when the file is missing or frames are short; otherwise the process count is incremented and a space is built |
| UserProcesses.BroadcastUnderLock | code/userprog/userprocess.cc:170-174 | taking an idle process lock, broadcasting its condition and releasing the lock wakes every counted waiter and leaves the lock idle |
| UserProcesses.CleanUpOnExit | code/userprog/userprocess.cc:168-176 | the process's slot is freed and all waiters on its condition are released; nothing else changes |
| UserProcesses.FinishExit | code/userprog/userprocess.cc:100-113 | the machine halts exactly when the decremented count is zero; otherwise the slot is cleaned and the space's frames are freed |
| UserProcesses.ProcessExit | code/userprog/userprocess.cc:93-114 | the exiting process waits exactly while other threads remain; otherwise it finishes the exit |
| UserProcesses.ProcessExitResume | code/userprog/userprocess.cc:158-166 | a woken exiting process finishes only when signalled and no other thread remains |
| UserProcesses.WaitProcess | code/userprog/userprocess.cc:126-138 | waiting on oneself returns at once; otherwise it returns exactly when the slot is free and sleeps otherwise |
| UserProcesses.WaitProcessResume | code/userprog/userprocess.cc:133-137 | a woken waiter returns only when signalled and the slot is free |
| UserProcesses.ExitReleasesWaiters | code/userprog/userprocess.cc:93-176 | when a process exits while someone waits on it, that waiter's resume returns |
| UserProcesses.WaitAfterExitReturns | code/userprog/userprocess.cc:93-176 | a wait on a process that has already exited returns at once |
| UserProcesses.CreatedProcessIsWaitedFor | code/userprog/userprocess.cc:126-137 | after a successful create that got a pid, the pid's slot is claimed, so another process waiting on it sleeps until the new process's exit clears the slot |
| CStrings.StrLen | code/userprog/synchconsole.cc:130-133 | the index of the first '\0' in a buffer |
| CStrings.CString | code/userprog/synchconsole.cc:123-136 | the C string of a buffer: the characters before its first '\0' |
| CStrings.CStringOfTerminated | code/userprog/synchconsole.cc:123-136 | a string followed by '\0' and anything after reads back as that string |
| Console.SynchPutChar | code/userprog/synchconsole.cc:67-75 | exactly the one character is appended to the output |
| Console.PutCharsAppends | code/userprog/shell.cc:20-30 | writing characters one by one appends them in order |
| Console.SynchPutString | code/userprog/synchconsole.cc:123-136 | a null string emits nothing; otherwise exactly the C string is emitted |
| Console.PutStringIsPutChars | code/userprog/synchconsole.cc:123-136 | a string emitted whole comes out as it would character by character |
| Console.LineLength | code/userprog/synchconsole.cc:160-167 | the index where reading stops: the first EOF, newline or '\0', or the limit |
| Console.Line | code/userprog/synchconsole.cc:152-171 | the characters the buffer keeps, in input order |
| Console.SynchGetString | code/userprog/synchconsole.cc:152-171 | a null buffer reads nothing; otherwise the buffer holds the line without its newline, at most n - 1 characters, then '\0'; later slots keep their contents, and exactly one more character than is kept is consumed |
| Console.Digits | code/userprog/synchconsole.cc:184-191 | the decimal digits, without leading zeros |
| Console.Decimal | code/userprog/synchconsole.cc:184-191 | the %i rendering has a leading '-' exactly for negative numbers and contains no '\0' |
| Console.DigitsRoundTrip | code/userprog/synchconsole.cc:184-191 | reading the digits of a number back gives the number |
| Console.DecimalRoundTrip | code/userprog/synchconsole.cc:184-191 | reading a rendered number back, sign included, gives the number |
| Console.DigitsBound | code/threads/system.h:72 | a number below 10^k has at most k digits |
| Console.Int32Fits | code/threads/system.h:72 | every 32-bit int renders in at most 11 characters, within MAX_INT_SIZE - 1 |
| Console.Snprintf | code/userprog/synchconsole.cc:188-189 | the buffer is terminated, no longer than its size, and holds the rendering cut to size - 1 |
| Console.SynchPutInt | code/userprog/synchconsole.cc:184-191 | the whole rendering of a 32-bit int is emitted, fits the buffer, and reads back as the number |
| Shell.Stop | code/userprog/shell.h:32 | where a scan loop stops: at index 254, at '\0', or at a space when splitting |
| Shell.CopyWord | code/userprog/shell.h:56-59 | a scan loop copies the scanned characters to the front of the field and keeps every other character |
| Shell.ScanWhole | code/userprog/shell.h:65-71 | the single-argument scan puts the rest of the line in txt[0] and empties txt[1] |
| Shell.ScanSplit | code/userprog/shell.h:30-38 | the two-argument scan splits at the first space; the first field's terminator goes at the line index of that space |
| Shell.NoArguments | code/userprog/shell.h:102-104 | commands without arguments only empty txt[1] |
| Shell.Decode | code/userprog/shell.h:24-106 | each command kind is chosen exactly by its letters; unknown exactly otherwise; each kind's arguments are scanned as it specifies |
| Shell.WholeArgumentIsRestOfLine | code/userprog/shell.h:53-60 | the cd/nd/r argument read as a C string is the line from its start to '\0' or index 254 |
| Shell.SplitFirstRead | code/userprog/shell.h:30-38 | the first of two arguments reads back as its word followed by the characters an earlier command left in the field, up to their '\0' |
| Shell.SplitSecondRead | code/userprog/shell.h:30-38 | the second of two arguments reads back as the text after the first space |
| Shell.Finished | code/userprog/shell.cc:14-18 | a line ends the shell exactly when it starts with "exit" or "halt" |
| Shell.FinishingLinesAreUnknown | code/userprog/shell.h:24-106 | "exit" and "halt" decode as unknown commands |
| Shell.PrintCd | code/userprog/shell.cc:20-30 | the prompt is empty exactly for an empty stack and otherwise ends with '/' |
| Shell.CdStep | code/userprog/shell.cc:92-102 | a failed move keeps the stack; ".." pops but never the root; any other name is pushed |
| Shell.PromptAfterCd | code/userprog/shell.cc:20-102 | entering a directory extends the prompt by its name and '/' |
| Shell.CdRoundTrip | code/userprog/shell.cc:92-102 | entering a directory and then ".." restores the stack and the prompt |
| Shell.HomeIsNeverPopped | code/userprog/shell.cc:42-102 | from the initial stack, "home" stays at the bottom for any sequence of cd calls, and the stack grows by at most one per call |
| Shell.InitialPrompt | code/userprog/shell.cc:42-48 | the first prompt is "home/" |
| LibGcc.ToChar | code/test/libgcc.c:12 | storing an int through a char keeps it modulo 256 |
| LibGcc.Moved | code/test/libgcc.c:26-40 | the reference result of a move: the destination range holds the source bytes and nothing else changes |
| LibGcc.Memset | code/test/libgcc.c:9-15 | exactly the n bytes from s hold (char)c, and s is returned |
| LibGcc.Memcpy | code/test/libgcc.c:17-24 | bytes outside the destination keep their values; with disjoint ranges or src at or above dest the result matches Moved; when src lies d bytes below dest and the ranges overlap, the first d source bytes repeat along the destination |
| LibGcc.Memmove | code/test/libgcc.c:26-40 | the result always matches Moved, even for overlapping ranges, and dest is returned |

## Left out

- The bitmap's implementation, `bitmap.cc`, is not part of this model. Its
  interface in `bitmap.h` is modelled on a sequence of booleans. `Find` is
  taken to return the lowest clear bit, as NachOS's bitmap does.
- The system-call dispatcher `exception.cc` (register decoding, `UpdatePC`,
  the halt path) is not modelled. Only the `do_*` calls it forwards to are.
- The MIPS emulator is not modelled. `ReadMem`/`WriteMem` are a partial map
  whose missing addresses fail.
- Loading the NOFF executable (`SwapHeader`, `ReadAtVirtual`, the magic-number
  assertion) is not modelled. The constructor works from the segment sizes.
- Threads really running concurrently is not modelled: the scheduler, `Fork`,
  `Finish`, `Yield` and interrupts. Each system call is a single atomic step,
  and blocking is a separate resume step.
- `new`/`delete` and destructors are not modelled. This covers:
  - the `delete currentThread->space` that follows `Finish()` and is never
    reached;
  - the destructor of a space whose construction failed.
- `SynchGetChar`, `SynchGetInt` (`sscanf`) and the console device are not
  modelled. The same goes for its `readAvail`/`writeDone` semaphores and the
  console locks, which only order device accesses.
- The shell's file-system actions (`exec`, copy, print, remove, `ls`, new
  file or directory) and its busy-wait on `numProcess` are not modelled.
  Their outcome comes from code that is not part of this model.
- `progtest.cc`, `userSem.cc` and `threadparams.h` are not modelled beyond
  the thread-parameter record.
- `srand(time(...))`: the random generator is a parameter.
- UserThreads.Create: 32-bit overflow of the thread-id counter is not
  modelled. Ids are unbounded naturals.
- LibGcc.Memset: the loop index is an `int` while the count is a `size_t`.
  Counts of 2^31 or more are not modelled.
- MachineStrings.CopyStringToMachine: the unsigned index `i` is returned as
  an `int` and added to the `int` address `to`. Strings of 2^31 characters or
  more, which only a size of 0 or above 2^31 lets through, are not modelled
  for that conversion.
- LibGcc.Memcpy: the same `int` loop index over a `size_t` count. Counts of
  2^31 or more, where the index overflows, are not modelled: the model copies
  all n bytes.
- LibGcc.Memmove: the same `int` loop index over a `size_t` count, in both
  copy directions. Counts of 2^31 or more are not modelled: the model moves
  all n bytes.
- UserThreads.ExitStack: requires the slot computed from the stack pointer to
  lie inside the stack bitmap. A process's main thread runs on stack pointer
  0 (userprocess.cc:75). If it calls ThreadExit, the computed slot is
  numPages/2 - 1. That slot lies past the bitmap whenever the space holds
  more than UserThreadMax stacks' worth of bytes
  (UserThreads.MainThreadSlotPastStacks). There `BitMap::Clear`'s range
  assertion stops the kernel. That abort is not modelled.
- AddrSpaces.RemoveThread: requires a live id below UserThreadMax, the
  number of join conditions. Ids come from a counter that only grows, while
  `threadSynchTable` has UserThreadMax entries indexed by id
  (addrspace.cc:243,418,420). So a thread whose id is UserThreadMax or more
  has no join condition, and the source indexes past `threadSynchTable` for
  it (UserThreads.CreatedIdPastJoinConditions). That access is not modelled.
- UserThreads.ExitTable: requires a live caller's id below UserThreadMax; the
  exit of a thread with no join condition, where the source indexes past
  `threadSynchTable`, is not modelled.
- UserThreads.ExitThread: the same id bound as ExitTable; the exit of a
  thread with no join condition is not modelled.
- UserThreads.Join: requires a joinable target's id below UserThreadMax; a
  join on a thread with no join condition, where the source indexes past
  `threadSynchTable`, is not modelled.
- UserThreads.JoinResume: requires the target's id below UserThreadMax; a
  resumed join on a thread with no join condition is not modelled.
- UserThreads.ExitReleasesJoiner: proved only for targets whose id is below
  UserThreadMax, since the others have no join condition.
- Console.SynchGetString: requires a buffer of at least max(1, n) slots. Two
  system calls break this: GetString with size 0 allocates an empty buffer
  that still gets its first slot written (exception.cc:119-123), and Read
  passes the user's size into a MAX_FILENAME buffer (exception.cc:227).
  Those overflows in the callers are not modelled.
- UserThreads.ExitThread: the same in-range slot requirement as ExitStack, so
  the main thread's ThreadExit on stack pointer 0 is not modelled.
- UserProcesses.WaitProcess: requires 0 <= pid < 64. The source indexes the
  process arrays with any pid (userprocess.cc:133), so a wait on the -1 that
  a failed create returns reads outside the arrays. That out-of-range access
  is not modelled.
- UserProcesses.FinishExit: requires a process id whenever other processes
  remain. A process created while slots 1..63 were all taken gets none, and
  its exit indexes the process arrays with the uninitialised `processID`
  field (userprocess.cc:96,112). The model has no value for that field, so
  such a process cannot exit in the model while other processes run.
- UserProcesses.ProcessExit: the same process-id requirement as FinishExit,
  for the same reason.
- UserProcesses.ProcessExitResume: the same process-id requirement as
  FinishExit, for the same reason.
- AddrSpaces.NewAddrSpace: requires the page count to be at most the number
  of physical frames. This stands for the `ASSERT(numPages <= NumPhysPages)`
  at addrspace.cc:89, whose failure stops the kernel; that abort is not
  modelled.
- UserProcesses.ProcessCreate: the same page-count requirement as
  NewAddrSpace, for the same reason.
- A page size above 524 is not modelled. There `UserThreadMax` is 0, so the
  source allocates zero-length thread tables, still writes `threadTable[0]`,
  and sets `max_threads` to -1 (addrspace.cc:242,252-253).
- Frame allocation inside the address-space constructor does not model the
  `IsFrameAvail` test in the page loop. The constructor has already checked
  that enough frames are free, so the test always passes.
- Shell.CdStep: the directory stack is not bounded by the shell's 15
  buffers. In the source a 16th push writes past the array, and the model
  just keeps growing the stack.
- Debug names and `DEBUG` output are not modelled.

=== FILE: addrspace.dfy ===
/**
 * The address-space manager: the page table built from the frame provider,
 * the table of live user threads with its thread-id counter, the stack
 * slots handed to user threads, and the process slot the space claims.
 *
 * A `Space` is the state between two system calls. Its table lock is then
 * idle; operations that run under that lock (RemoveThread) take the space
 * with the lock held by their caller. The stack lock may stay held after a
 * failed thread creation, so it is only required to be valid.
 */
module AddrSpaces {
  import opened Opt
  import opened Machine
  import opened Synch
  import opened BitMaps
  import opened Frames
  import opened Kernel

  /** Bytes reserved at the top of every address space for the stacks. */
  const UserStackSize: nat := 1048

  /** The stack of one user thread spans two pages. */
  const UserThreadStackSize: nat := 2 * PageSize

  /** The number of thread stacks that fit in the reserved bytes. */
  const UserThreadMax: int := UserStackSize / UserThreadStackSize

  /** The identifier of a process's initial thread. */
  const MainThread: Tid := 1

  /** A TranslationEntry of the page table. */
  datatype PageEntry = PageEntry(virtualPage: nat, physicalPage: int, valid: bool, use: bool, dirty: bool, readOnly: bool)

  /**
   * An address space: the live thread table (threadTable, nb_threads), the
   * id counter, max_threads, the stack-slot bitmap, the table lock, the
   * stack lock, the exit condition, one join condition per table entry,
   * the page table and the claimed process slot (none when the process
   * table was full).
   */
  datatype Space = Space(
    threads: seq<Tid>,
    counter: nat,
    maxThreads: nat,
    stacks: BitMap,
    tableLock: Lock,
    stackLock: Lock,
    exitCond: Condition,
    joinConds: seq<Condition>,
    numPages: nat,
    pageTable: seq<PageEntry>,
    processId: Option<nat>)

  predicate NoDuplicates(q: seq<Tid>)
  {
    forall i, j :: 0 <= i < j < |q| ==> q[i] != q[j]
  }

  /** What holds of a space between two system calls. */
  predicate SpaceValid(s: Space)
  {
    && UserThreadMax >= 1
    && |s.stacks.bits| == UserThreadMax
    && |s.joinConds| == UserThreadMax
    && s.maxThreads == UserThreadMax - 1
    && |s.threads| <= UserThreadMax
    && NoDuplicates(s.threads)
    && s.numPages * PageSize >= UserStackSize
    && |s.pageTable| == s.numPages
    && s.tableLock == NewLock()
    && LockValid(s.stackLock)
    && CondValid(s.exitCond)
    && (forall i :: 0 <= i < |s.joinConds| ==> CondValid(s.joinConds[i]))
  }

  // ---------------------------------------------------------------------
  // The live thread table
  // ---------------------------------------------------------------------

  /** The scan of HasThread and RemoveThread: the first position holding id, or -1. */
  function IndexOf(q: seq<Tid>, id: Tid): (i: int)
    ensures i == -1 <==> id !in q
    ensures i != -1 ==> 0 <= i < |q| && q[i] == id && id !in q[..i]
    decreases |q|
  {
    if q == [] then -1
    else if q[0] == id then 0
    else
      var k := IndexOf(q[1..], id);
      assert k != -1 ==> q[1..][..k] == q[1..k + 1];
      if k == -1 then -1 else k + 1
  }

  /** HasThread(ID). */
  function HasThread(s: Space, id: Tid): (r: bool)
    ensures r <==> id in s.threads
  {
    IndexOf(s.threads, id) != -1
  }

  /**
   * AddThread(ID): appends id at position nb_threads unless it is already
   * there. The table has UserThreadMax entries.
   */
  function AddThread(s: Space, id: Tid): (r: Space)
    requires id !in s.threads ==> |s.threads| < UserThreadMax
    ensures id in s.threads ==> r == s
    ensures id !in s.threads ==> r.threads == s.threads + [id] && r == s.(threads := r.threads)
    ensures id in r.threads
    ensures NoDuplicates(s.threads) ==> NoDuplicates(r.threads)
  {
    if HasThread(s, id) then s else s.(threads := s.threads + [id])
  }

  /** Adding an id twice is the same as adding it once. */
  lemma AddThreadIdempotent(s: Space, id: Tid)
    requires id !in s.threads ==> |s.threads| < UserThreadMax
    ensures AddThread(AddThread(s, id), id) == AddThread(s, id)
  {
  }

  /**
   * The shift loop of RemoveThread: entry i leaves the table, the entries
   * before it stay put and those after it move down by one.
   */
  function RemoveAt(q: seq<Tid>, i: nat): (r: seq<Tid>)
    requires i < |q|
    ensures |r| == |q| - 1
    ensures forall k :: 0 <= k < i ==> r[k] == q[k]
    ensures forall k :: i <= k < |r| ==> r[k] == q[k + 1]
    ensures multiset(r) == multiset(q) - multiset{q[i]}
  {
    var r := q[..i] + q[i + 1..];
    assert q == q[..i] + [q[i]] + q[i + 1..];
    r
  }

  /** Removing an entry from a table without duplicates removes that id altogether. */
  lemma RemoveAtNoDuplicates(q: seq<Tid>, i: nat)
    requires i < |q| && NoDuplicates(q)
    ensures NoDuplicates(RemoveAt(q, i)) && q[i] !in RemoveAt(q, i)
  {
    var r := RemoveAt(q, i);
    forall k | 0 <= k < |r| ensures r[k] != q[i] {
      var k' := if k < i then k else k + 1;
      assert r[k] == q[k'];
    }
    forall a, b | 0 <= a < b < |r| ensures r[a] != r[b] {
      var a' := if a < i then a else a + 1;
      var b' := if b < i then b else b + 1;
      assert r[a] == q[a'] && r[b] == q[b'];
    }
  }

  /**
   * RemoveThread(ID), run by the holder of the table lock. An absent id
   * changes nothing. A present id leaves the table, the others keeping
   * their order, and the id's join condition and the exit condition are
   * broadcast, leaving no waiter counted on either. The join conditions are
   * indexed by thread id, so the id must be below UserThreadMax.
   */
  function RemoveThread(s: Space, id: Tid, caller: Tid): (r: Space)
    requires LockValid(s.tableLock) && s.tableLock.ownerId == caller
    requires id in s.threads ==> id < |s.joinConds|
    ensures id !in s.threads ==> r == s
    ensures id in s.threads ==>
      && r.threads == RemoveAt(s.threads, IndexOf(s.threads, id))
      && |r.joinConds| == |s.joinConds|
      && r.joinConds == s.joinConds[id := r.joinConds[id]]
      && r.joinConds[id].waiting == 0
      && r.joinConds[id].sleep.value == s.joinConds[id].sleep.value + s.joinConds[id].waiting
      && r.exitCond.waiting == 0
      && r.exitCond.sleep.value == s.exitCond.sleep.value + s.exitCond.waiting
      && r == s.(threads := r.threads, joinConds := r.joinConds, exitCond := r.exitCond, tableLock := r.tableLock)
    ensures LockValid(r.tableLock) && r.tableLock.ownerId == caller
    ensures s.tableLock == Held(caller) ==> r.tableLock == Held(caller)
    ensures CondValid(s.exitCond) ==> CondValid(r.exitCond)
    ensures (forall k :: 0 <= k < |s.joinConds| ==> CondValid(s.joinConds[k])) ==>
      forall k :: 0 <= k < |r.joinConds| ==> CondValid(r.joinConds[k])
  {
    var i := IndexOf(s.threads, id);
    if i == -1 then s
    else
      var join := Broadcast(s.joinConds[id], s.tableLock, caller);
      var exit := Broadcast(s.exitCond, join.lock, caller);
      s.(threads := RemoveAt(s.threads, i), joinConds := s.joinConds[id := join.cond],
         exitCond := exit.cond, tableLock := exit.lock)
  }

  /** Adding a fresh id and removing it again gives back the table as it was. */
  lemma AddRemoveRoundTrip(s: Space, id: Tid, caller: Tid)
    requires id !in s.threads && |s.threads| < UserThreadMax
    requires LockValid(s.tableLock) && s.tableLock.ownerId == caller
    requires id < |s.joinConds|
    ensures RemoveThread(AddThread(s, id), id, caller).threads == s.threads
  {
    var q := s.threads + [id];
    assert IndexOf(q, id) == |s.threads| by {
      assert q[..|s.threads|] == s.threads;
    }
    assert q[..|s.threads|] == s.threads;
  }

  /** The result of GetNextThreadID: the id handed out and the space after. */
  datatype Issued = Issued(id: Tid, space: Space)

  /** GetNextThreadID(): hands out the counter and increments it. */
  function GetNextThreadID(s: Space): (r: Issued)
    ensures r.id == s.counter && r.space.counter == s.counter + 1
    ensures r.space == s.(counter := r.space.counter)
  {
    Issued(s.counter, s.(counter := s.counter + 1))
  }

  /** The ids handed out by n calls of GetNextThreadID in a row. */
  function IssueIds(s: Space, n: nat): seq<Tid>
    decreases n
  {
    if n == 0 then []
    else
      var r := GetNextThreadID(s);
      [r.id] + IssueIds(r.space, n - 1)
  }

  /** Successive ids are strictly increasing from the counter, so none is handed out twice. */
  lemma {:induction false} IssuedIdsIncrease(s: Space, n: nat)
    ensures |IssueIds(s, n)| == n
    ensures forall k :: 0 <= k < n ==> IssueIds(s, n)[k] == s.counter + k
    ensures forall a, b :: 0 <= a < b < n ==> IssueIds(s, n)[a] < IssueIds(s, n)[b]
    decreases n
  {
    if n > 0 {
      var r := GetNextThreadID(s);
      IssuedIdsIncrease(r.space, n - 1);
      var rest := IssueIds(r.space, n - 1);
      assert IssueIds(s, n) == [s.counter] + rest;
      forall k | 0 < k < n ensures IssueIds(s, n)[k] == s.counter + k {
        assert IssueIds(s, n)[k] == rest[k - 1];
      }
    }
  }

  // ---------------------------------------------------------------------
  // Thread stacks
  // ---------------------------------------------------------------------

  /** The first byte past the address space, where the stacks start. */
  function StackTop(s: Space): int
  {
    s.numPages * PageSize
  }

  /** The initial stack pointer of the thread in stack slot `slot`. */
  function SlotStackPointer(s: Space, slot: nat): int
  {
    StackTop(s) - (slot + 1) * UserThreadStackSize
  }

  /** The stack slot RemoveStackPointer computes from a stack pointer. */
  function SlotOf(s: Space, sp: int): int
  {
    (StackTop(s) - sp) / UserThreadStackSize - 1
  }

  lemma MulStep(x: int, y: int, b: nat)
    ensures x >= y + 1 ==> x * b >= y * b + b
  {
    if x >= y + 1 {
      assert x * b - y * b - b == (x - y - 1) * b;
    }
  }

  lemma MulDiv(a: nat, b: nat)
    requires b > 0
    ensures (a * b) / b == a
  {
    var q := (a * b) / b;
    var r := (a * b) % b;
    assert a * b == q * b + r && 0 <= r < b;
    MulStep(a, q, b);
    MulStep(q, a, b);
  }

  /** Spaces of the same size map stack pointers to the same slots. */
  lemma SameSlots(s: Space, t: Space, sp: int)
    requires s.numPages == t.numPages
    ensures SlotOf(s, sp) == SlotOf(t, sp)
  {
  }

  /** RemoveStackPointer maps a slot's stack pointer back to that slot. */
  lemma SlotOfStackPointer(s: Space, slot: nat)
    ensures SlotOf(s, SlotStackPointer(s, slot)) == slot
  {
    MulDiv(slot + 1, UserThreadStackSize);
    assert StackTop(s) - SlotStackPointer(s, slot) == (slot + 1) * UserThreadStackSize;
  }

  /** All UserThreadMax stacks fit in the UserStackSize bytes reserved at the top. */
  lemma StacksFit(slot: nat)
    requires slot < UserThreadMax
    ensures (slot + 1) * UserThreadStackSize <= UserStackSize
  {
    assert slot + 1 <= UserThreadMax;
    assert (slot + 1) * UserThreadStackSize <= UserThreadMax * UserThreadStackSize;
  }

  /** Stacks of two different slots do not overlap. */
  lemma StacksDisjoint(s: Space, i: nat, j: nat)
    requires i < j
    ensures SlotStackPointer(s, j) <= SlotStackPointer(s, i) - UserThreadStackSize
  {
    assert (j + 1) * UserThreadStackSize >= (i + 2) * UserThreadStackSize;
  }

  /** The result of GetStackPointer: the stack pointer (or -1) and the space after. */
  datatype StackGrant = StackGrant(sp: int, space: Space)

  /**
   * GetStackPointer(): claims the lowest free stack slot and returns its
   * stack pointer, which lies inside the bytes reserved for stacks; -1,
   * changing nothing, when every slot is taken.
   */
  function GetStackPointer(s: Space): (r: StackGrant)
    requires SpaceValid(s)
    ensures r.sp == -1 <==> NumClear(s.stacks) == 0
    ensures r.sp == -1 ==> r.space == s
    ensures r.sp != -1 ==>
      var slot := SlotOf(s, r.sp);
      && 0 <= slot < UserThreadMax
      && !s.stacks.bits[slot]
      && (forall k :: 0 <= k < slot ==> s.stacks.bits[k])
      && r.sp == SlotStackPointer(s, slot)
      && r.space == s.(stacks := r.space.stacks)
      && r.space.stacks.bits == s.stacks.bits[slot := true]
      && NumClear(r.space.stacks) == NumClear(s.stacks) - 1
    ensures r.sp != -1 ==>
      StackTop(s) - UserStackSize <= r.sp < StackTop(s)
    ensures SpaceValid(r.space)
  {
    var f := Find(s.stacks);
    if f.index == -1 then StackGrant(-1, s)
    else
      SlotOfStackPointer(s, f.index);
      StacksFit(f.index);
      StackGrant(SlotStackPointer(s, f.index), s.(stacks := f.after))
  }

  /**
   * RemoveStackPointer(sp): clears the slot the stack pointer belongs to.
   * BitMap::Clear asserts that the slot is in range.
   */
  function RemoveStackPointer(s: Space, sp: int): (r: Space)
    requires 0 <= SlotOf(s, sp) < |s.stacks.bits|
    ensures r.stacks.bits == s.stacks.bits[SlotOf(s, sp) := false]
    ensures r == s.(stacks := r.stacks)
  {
    s.(stacks := Clear(s.stacks, SlotOf(s, sp)))
  }

  /** Freeing the stack pointer just handed out gives back the space as it was. */
  lemma StackRoundTrip(s: Space)
    requires SpaceValid(s)
    ensures var g := GetStackPointer(s);
      g.sp != -1 ==> RemoveStackPointer(g.space, g.sp) == s
  {
    var g := GetStackPointer(s);
    if g.sp != -1 {
      var slot := SlotOf(s, g.sp);
      assert SlotOf(g.space, g.sp) == slot;
      MarkClearRoundTrip(s.stacks, slot);
    }
  }

  // ---------------------------------------------------------------------
  // Process slot and setup
  // ---------------------------------------------------------------------

  /** The loop of InitSpaceSetup: the first slot from `from` on not marked 1, or -1. */
  function FirstUnclaimed(slots: seq<int>, from: nat): (i: int)
    requires from <= |slots|
    ensures i == -1 ==> forall k :: from <= k < |slots| ==> slots[k] == 1
    ensures i != -1 ==> from <= i < |slots| && slots[i] != 1
    ensures i != -1 ==> forall k :: from <= k < i ==> slots[k] == 1
    decreases |slots| - from
  {
    if from == |slots| then -1
    else if slots[from] != 1 then from
    else FirstUnclaimed(slots, from + 1)
  }

  /** The process slot claimed, if any, and the process table after. */
  datatype Claim = Claim(pid: Option<nat>, table: ProcessTable)

  /**
   * The claim in InitSpaceSetup: the first slot in [1, MaxProcesses) not
   * marked 1 is marked 1 and becomes the process id. Slot 0 is never
   * claimed. With every slot taken, no id is assigned and nothing signals it.
   * Each slot's lock is taken and given back within the transition.
   */
  function ClaimSlot(pt: ProcessTable): (r: Claim)
    requires ProcessTableValid(pt)
    ensures r.pid.None? <==> forall k :: 1 <= k < MaxProcesses ==> pt.slots[k] == 1
    ensures r.pid.None? ==> r.table == pt
    ensures r.pid.Some? ==>
      var pid := r.pid.value;
      && 1 <= pid < MaxProcesses
      && pt.slots[pid] != 1
      && (forall k :: 1 <= k < pid ==> pt.slots[k] == 1)
      && r.table == pt.(slots := pt.slots[pid := 1])
    ensures ProcessTableValid(r.table)
  {
    var i := FirstUnclaimed(pt.slots, 1);
    if i == -1 then Claim(None, pt)
    else Claim(Some(i), pt.(slots := pt.slots[i := 1]))
  }

  /** A space with its process table, as InitSpaceSetup leaves them. */
  datatype Setup = Setup(space: Space, table: ProcessTable)

  /**
   * InitSpaceSetup(): the live table holds only the initial thread, the
   * counter is 1, max_threads is UserThreadMax - 1, every stack slot is
   * free, the locks are idle, no condition has waiters, and a process slot
   * is claimed.
   */
  function InitSpaceSetup(numPages: nat, pageTable: seq<PageEntry>, pt: ProcessTable): (r: Setup)
    requires UserThreadMax >= 1
    requires ProcessTableValid(pt)
    ensures r.space.threads == [MainThread] && r.space.counter == 1
    ensures r.space.maxThreads == UserThreadMax - 1
    ensures |r.space.stacks.bits| == UserThreadMax && NumClear(r.space.stacks) == UserThreadMax
    ensures r.space.numPages == numPages && r.space.pageTable == pageTable
    ensures r.space.processId == ClaimSlot(pt).pid && r.table == ClaimSlot(pt).table
    ensures numPages * PageSize >= UserStackSize && |pageTable| == numPages ==> SpaceValid(r.space)
  {
    var claim := ClaimSlot(pt);
    Setup(Space([MainThread], 1, UserThreadMax - 1, New(UserThreadMax),
                NewLock(), NewLock(), NewCondition(), seq(UserThreadMax, _ => NewCondition()),
                numPages, pageTable, claim.pid),
          claim.table)
  }

  /** The first id GetNextThreadID hands out is the initial thread's, so adding it changes nothing. */
  lemma FirstIdIsMainThread(numPages: nat, pageTable: seq<PageEntry>, pt: ProcessTable)
    requires UserThreadMax >= 1
    requires ProcessTableValid(pt)
    ensures var s := InitSpaceSetup(numPages, pageTable, pt).space;
      && GetNextThreadID(s).id == MainThread
      && AddThread(GetNextThreadID(s).space, MainThread).threads == [MainThread]
  {
  }

  // ---------------------------------------------------------------------
  // Pages and frames
  // ---------------------------------------------------------------------

  /** The sizes the NOFF header gives for the three segments. */
  datatype NoffSizes = NoffSizes(code: nat, initData: nat, uninitData: nat)

  /** divRoundUp(n, s). */
  function DivRoundUp(n: nat, d: nat): (q: nat)
    requires d > 0
    ensures q * d >= n
    ensures q > 0 ==> (q - 1) * d < n
  {
    var r := n / d + (if n % d > 0 then 1 else 0);
    assert n == (n / d) * d + n % d;
    assert r * d == (n / d) * d + (if n % d > 0 then d else 0);
    r
  }

  /** The pages a program needs: its segments plus the stack area, rounded up to whole pages. */
  function NumPagesFor(h: NoffSizes): (n: nat)
    ensures n * PageSize >= h.code + h.initData + h.uninitData + UserStackSize
    ensures n > 0 && (n - 1) * PageSize < h.code + h.initData + h.uninitData + UserStackSize
  {
    DivRoundUp(h.code + h.initData + h.uninitData + UserStackSize, PageSize)
  }

  /** Whether some valid page of the table maps to frame j. */
  predicate Allocated(table: seq<PageEntry>, j: int)
  {
    exists k :: 0 <= k < |table| && table[k].valid && table[k].physicalPage == j
  }

  lemma AllocatedAppend(table: seq<PageEntry>, e: PageEntry, j: int)
    ensures Allocated(table + [e], j) <==> Allocated(table, j) || (e.valid && e.physicalPage == j)
  {
    var t := table + [e];
    if Allocated(table, j) {
      var k :| 0 <= k < |table| && table[k].valid && table[k].physicalPage == j;
      assert t[k] == table[k];
    }
    if e.valid && e.physicalPage == j {
      assert t[|table|] == e;
    }
    if Allocated(t, j) {
      var k :| 0 <= k < |t| && t[k].valid && t[k].physicalPage == j;
      if k < |table| {
        assert t[k] == table[k];
      }
    }
  }

  /** A page table, the provider, memory and the rand cursor after allocating its pages. */
  datatype Paging = Paging(pageTable: seq<PageEntry>, provider: FrameProvider, mem: seq<Byte>, cursor: nat)

  /**
   * The loop of the constructor over pages [0, count): page i gets virtual
   * page i, is valid, and maps to a frame from GetEmptyFrame. The frames
   * are distinct, were free before, and are exactly the ones now marked.
   */
  function AllocatePages(fp: FrameProvider, mem: seq<Byte>, rand: nat -> nat, cursor: nat, count: nat): (r: Paging)
    requires |mem| >= NumFrames(fp) * PageSize
    requires count <= NumAvailFrame(fp)
    ensures |r.pageTable| == count && |r.mem| == |mem|
    ensures NumFrames(r.provider) == NumFrames(fp)
    ensures NumAvailFrame(r.provider) == NumAvailFrame(fp) - count
    ensures forall k :: 0 <= k < count ==>
      && r.pageTable[k].virtualPage == k
      && r.pageTable[k].valid
      && !r.pageTable[k].use && !r.pageTable[k].dirty && !r.pageTable[k].readOnly
      && 0 <= r.pageTable[k].physicalPage < NumFrames(fp)
      && !fp.frames.bits[r.pageTable[k].physicalPage]
    ensures forall a, b :: 0 <= a < b < count ==> r.pageTable[a].physicalPage != r.pageTable[b].physicalPage
    ensures forall j :: 0 <= j < NumFrames(fp) ==>
      r.provider.frames.bits[j] == (fp.frames.bits[j] || Allocated(r.pageTable, j))
    decreases count
  {
    if count == 0 then Paging([], fp, mem, cursor)
    else
      var prev := AllocatePages(fp, mem, rand, cursor, count - 1);
      var a := GetEmptyFrame(prev.provider, prev.mem, rand, prev.cursor);
      var e := PageEntry(count - 1, a.frame, true, false, false, false);
      var table := prev.pageTable + [e];
      forall j | 0 <= j < NumFrames(fp)
        ensures a.provider.frames.bits[j] == (fp.frames.bits[j] || Allocated(table, j))
      {
        AllocatedAppend(prev.pageTable, e, j);
      }
      forall k | 0 <= k < count - 1 ensures table[k].physicalPage != a.frame {
        assert table[k] == prev.pageTable[k];
        assert Allocated(prev.pageTable, table[k].physicalPage);
      }
      Paging(table, a.provider, a.mem, a.cursor)
  }

  /**
   * FreeFrames(): every valid page's frame is released, in page order;
   * only those frames' bits are cleared.
   */
  function FreeFrames(fp: FrameProvider, table: seq<PageEntry>): (r: FrameProvider)
    requires forall k :: 0 <= k < |table| && table[k].valid ==> 0 <= table[k].physicalPage < NumFrames(fp)
    ensures NumFrames(r) == NumFrames(fp)
    ensures forall j :: 0 <= j < NumFrames(fp) ==>
      r.frames.bits[j] == (fp.frames.bits[j] && !Allocated(table, j))
    decreases |table|
  {
    if table == [] then fp
    else
      var init := table[..|table| - 1];
      var e := table[|table| - 1];
      assert table == init + [e];
      var prev := FreeFrames(fp, init);
      forall j | 0 <= j < NumFrames(fp) ensures Allocated(table, j) <==> Allocated(init, j) || (e.valid && e.physicalPage == j) {
        AllocatedAppend(init, e, j);
      }
      if e.valid then ReleaseFrame(prev, e.physicalPage) else prev
  }

  /** The result of the AddrSpace constructor. */
  datatype Construction =
    | NotCreated
    | Created(space: Space, provider: FrameProvider, mem: seq<Byte>, cursor: nat, table: ProcessTable)

  /**
   * AddrSpace(executable), for a program with the given segment sizes. The
   * program must fit in physical memory (an ASSERT). With fewer free frames
   * than pages the space is not created and no frame is taken. Otherwise
   * page i maps virtual page i to a distinct frame that was free, exactly
   * those frames become used, and InitSpaceSetup runs.
   */
  function NewAddrSpace(h: NoffSizes, fp: FrameProvider, mem: seq<Byte>, rand: nat -> nat, cursor: nat,
                        pt: ProcessTable): (r: Construction)
    requires UserThreadMax >= 1
    requires NumPagesFor(h) <= NumFrames(fp)
    requires |mem| >= NumFrames(fp) * PageSize
    requires ProcessTableValid(pt)
    ensures r.NotCreated? <==> NumAvailFrame(fp) < NumPagesFor(h)
    ensures r.Created? ==>
      && SpaceValid(r.space)
      && r.space.numPages == NumPagesFor(h)
      && r.space.threads == [MainThread] && r.space.counter == 1
      && r.space.processId == ClaimSlot(pt).pid && r.table == ClaimSlot(pt).table
      && |r.mem| == |mem|
      && NumFrames(r.provider) == NumFrames(fp)
      && NumAvailFrame(r.provider) == NumAvailFrame(fp) - NumPagesFor(h)
      && (forall k :: 0 <= k < r.space.numPages ==>
            && r.space.pageTable[k].virtualPage == k
            && r.space.pageTable[k].valid
            && 0 <= r.space.pageTable[k].physicalPage < NumFrames(fp)
            && !fp.frames.bits[r.space.pageTable[k].physicalPage])
      && (forall a, b :: 0 <= a < b < r.space.numPages ==>
            r.space.pageTable[a].physicalPage != r.space.pageTable[b].physicalPage)
      && (forall j :: 0 <= j < NumFrames(fp) ==>
            r.provider.frames.bits[j] == (fp.frames.bits[j] || Allocated(r.space.pageTable, j)))
  {
    var n := NumPagesFor(h);
    if NumAvailFrame(fp) < n then NotCreated
    else
      var p := AllocatePages(fp, mem, rand, cursor, n);
      var setup := InitSpaceSetup(n, p.pageTable, pt);
      Created(setup.space, p.provider, p.mem, p.cursor, setup.table)
  }

  /** Freeing the frames of a space just created gives the provider back as it was. */
  lemma ConstructFreeRoundTrip(h: NoffSizes, fp: FrameProvider, mem: seq<Byte>, rand: nat -> nat, cursor: nat,
                               pt: ProcessTable)
    requires UserThreadMax >= 1
    requires NumPagesFor(h) <= NumFrames(fp)
    requires |mem| >= NumFrames(fp) * PageSize
    requires ProcessTableValid(pt)
    ensures var r := NewAddrSpace(h, fp, mem, rand, cursor, pt);
      r.Created? ==> FreeFrames(r.provider, r.space.pageTable) == fp
  {
    var r := NewAddrSpace(h, fp, mem, rand, cursor, pt);
    if r.Created? {
      var back := FreeFrames(r.provider, r.space.pageTable);
      assert back.frames.bits == fp.frames.bits;
    }
  }
}

=== FILE: bitmap.dfy ===
/**
 * The kernel's BitMap: a fixed number of bits, each set when the resource
 * it stands for (a physical frame, a thread stack slot) is in use.
 */
module BitMaps {

  const BitsInWord: nat := 32

  /** `bits[i]` is bit i; the bitmap has |bits| bits. */
  datatype BitMap = BitMap(bits: seq<bool>)

  /** Number of clear bits in `bits`. */
  function Count(bits: seq<bool>): nat
    decreases |bits|
  {
    if bits == [] then 0
    else Count(bits[..|bits| - 1]) + (if bits[|bits| - 1] then 0 else 1)
  }

  /** The storage the bitmap occupies: numBits rounded up to whole 32-bit words. */
  function NumWords(numBits: nat): (w: nat)
    ensures w * BitsInWord >= numBits
    ensures w > 0 ==> (w - 1) * BitsInWord < numBits
  {
    (numBits + BitsInWord - 1) / BitsInWord
  }

  /** BitMap(nitems): every bit clear. */
  function New(nitems: nat): (m: BitMap)
    ensures |m.bits| == nitems
    ensures forall i :: 0 <= i < nitems ==> !m.bits[i]
    ensures NumClear(m) == nitems
  {
    AllClearCount(nitems);
    BitMap(seq(nitems, _ => false))
  }

  /** Mark(which): bit `which` is set and no other bit changes. */
  function Mark(m: BitMap, which: nat): (r: BitMap)
    requires which < |m.bits|
    ensures r.bits == m.bits[which := true]
    ensures NumClear(r) == if m.bits[which] then NumClear(m) else NumClear(m) - 1
  {
    CountUpdate(m.bits, which, true);
    BitMap(m.bits[which := true])
  }

  /** Clear(which): bit `which` is cleared and no other bit changes. */
  function Clear(m: BitMap, which: nat): (r: BitMap)
    requires which < |m.bits|
    ensures r.bits == m.bits[which := false]
    ensures NumClear(r) == if m.bits[which] then NumClear(m) + 1 else NumClear(m)
  {
    CountUpdate(m.bits, which, false);
    BitMap(m.bits[which := false])
  }

  /** Test(which): the current value of bit `which`. */
  function Test(m: BitMap, which: nat): bool
    requires which < |m.bits|
  {
    m.bits[which]
  }

  /** NumClear(): the number of clear bits. */
  function NumClear(m: BitMap): nat
  {
    Count(m.bits)
  }

  /** Index of the lowest clear bit at or after `from`, or -1. */
  function FirstClear(bits: seq<bool>, from: nat): (i: int)
    requires from <= |bits|
    ensures i == -1 ==> forall k :: from <= k < |bits| ==> bits[k]
    ensures i != -1 ==> from <= i < |bits| && !bits[i]
    ensures i != -1 ==> forall k :: from <= k < i ==> bits[k]
    decreases |bits| - from
  {
    if from == |bits| then -1
    else if !bits[from] then from
    else FirstClear(bits, from + 1)
  }

  datatype Found = Found(index: int, after: BitMap)

  /**
   * Find(): the index of a bit that was clear, now set; or -1, with nothing
   * changed, when every bit is set. The lowest clear bit is the one taken.
   */
  function Find(m: BitMap): (r: Found)
    ensures r.index == -1 <==> NumClear(m) == 0
    ensures r.index == -1 ==> r.after == m
    ensures r.index != -1 ==>
      && 0 <= r.index < |m.bits| && !m.bits[r.index]
      && r.after.bits == m.bits[r.index := true]
      && NumClear(r.after) == NumClear(m) - 1
    ensures r.index != -1 ==> forall k :: 0 <= k < r.index ==> m.bits[k]
  {
    var i := FirstClear(m.bits, 0);
    if i == -1 then
      ZeroCountAllSet(m.bits);
      Found(-1, m)
    else
      ZeroCountAllSet(m.bits);
      Found(i, Mark(m, i))
  }

  lemma {:induction false} AllClearCount(n: nat)
    ensures Count(seq(n, _ => false)) == n
  {
    if n > 0 {
      assert seq(n, _ => false)[..n - 1] == seq(n - 1, _ => false);
      AllClearCount(n - 1);
    }
  }

  /** Changing one bit changes the clear count by at most one, in the evident direction. */
  lemma {:induction false} CountUpdate(bits: seq<bool>, i: nat, b: bool)
    requires i < |bits|
    ensures Count(bits[i := b]) ==
      Count(bits) - (if bits[i] then 0 else 1) + (if b then 0 else 1)
    decreases |bits|
  {
    var last := |bits| - 1;
    if i < last {
      assert bits[i := b][..last] == bits[..last][i := b];
      CountUpdate(bits[..last], i, b);
    } else {
      assert bits[i := b][..last] == bits[..last];
    }
  }

  /** No clear bit is counted exactly when every bit is set. */
  lemma {:induction false} ZeroCountAllSet(bits: seq<bool>)
    ensures Count(bits) == 0 <==> forall k :: 0 <= k < |bits| ==> bits[k]
    decreases |bits|
  {
    if bits != [] {
      var last := |bits| - 1;
      ZeroCountAllSet(bits[..last]);
      assert forall k :: 0 <= k < last ==> bits[..last][k] == bits[k];
    }
  }

  /** The indices of the clear bits. */
  function ClearSet(bits: seq<bool>): set<nat>
  {
    set k: nat | k < |bits| && !bits[k]
  }

  /** NumClear() is the number of clear bits. */
  lemma {:induction false} NumClearIsClearBits(bits: seq<bool>)
    ensures Count(bits) == |ClearSet(bits)|
    decreases |bits|
  {
    if bits == [] {
      assert ClearSet(bits) == {};
    } else {
      var last := |bits| - 1;
      var before := bits[..last];
      NumClearIsClearBits(before);
      assert last !in ClearSet(before);
      if bits[last] {
        assert ClearSet(bits) == ClearSet(before);
      } else {
        assert ClearSet(bits) == ClearSet(before) + {last};
      }
    }
  }

  /** Test reads the bit Mark set or Clear cleared, and every other bit as it was. */
  lemma TestAfterMarkClear(m: BitMap, which: nat, k: nat)
    requires which < |m.bits| && k < |m.bits|
    ensures Test(Mark(m, which), k) == (k == which || Test(m, k))
    ensures Test(Clear(m, which), k) == (k != which && Test(m, k))
  {
  }

  /** Marking a clear bit then clearing it restores the bitmap. */
  lemma MarkClearRoundTrip(m: BitMap, which: nat)
    requires which < |m.bits| && !m.bits[which]
    ensures Clear(Mark(m, which), which) == m
  {
  }
}

=== FILE: console.dfy ===
/**
 * The string and number loops of the synchronised console. The console
 * device is a pair of streams: the characters it will deliver, as an
 * oracle `input(k)` read from a cursor (a read blocks until the next
 * character arrives, so every position eventually holds one), and the
 * characters written so far. The locks and the readAvail/writeDone
 * handshakes only order these accesses and are not modelled.
 */
module Console {
  import opened Opt
  import opened CStrings

  /** EOF (-1) as it reads back from a `char`. */
  const Eof: char := 0xFF as char

  /** MAX_INT_SIZE: the buffer SynchPutInt renders into. */
  const MaxIntSize: nat := 15

  /** A 32-bit `int`. */
  predicate IsInt32(n: int)
  {
    -0x8000_0000 <= n < 0x8000_0000
  }

  // ---------------------------------------------------------------------
  // Output
  // ---------------------------------------------------------------------

  /** SynchPutChar: exactly one character is emitted. */
  function SynchPutChar(out: seq<char>, ch: char): (out': seq<char>)
    ensures |out'| == |out| + 1
    ensures out'[..|out|] == out && out'[|out|] == ch
  {
    out + [ch]
  }

  /** The characters of `s` emitted one SynchPutChar at a time, as printcd does. */
  function PutChars(out: seq<char>, s: seq<char>): (out': seq<char>)
    decreases |s|
  {
    if s == [] then out else PutChars(SynchPutChar(out, s[0]), s[1..])
  }

  /** Emitting the characters one by one appends them in order. */
  lemma {:induction false} PutCharsAppends(out: seq<char>, s: seq<char>)
    ensures PutChars(out, s) == out + s
    decreases |s|
  {
    if s != [] {
      PutCharsAppends(out + [s[0]], s[1..]);
      assert out + [s[0]] + s[1..] == out + s;
    }
  }

  /**
   * SynchPutString: nothing for a null or empty string; otherwise the
   * characters before the first '\0', in order.
   */
  method SynchPutString(out: seq<char>, s: Option<seq<char>>) returns (out': seq<char>)
    requires s.Some? ==> Nul in s.value
    ensures s.None? ==> out' == out
    ensures s.Some? ==> out' == out + CString(s.value)
  {
    if s.None? || s.value[0] == Nul {
      if s.Some? {
        CStringAt(s.value, 0);
      }
      return out;
    }
    var buf := s.value;
    out' := out;
    var i := 0;
    while buf[i] != Nul
      invariant 0 <= i <= StrLen(buf)
      invariant out' == out + buf[..i]
      decreases StrLen(buf) - i
    {
      out' := out' + [buf[i]];
      i := i + 1;
      assert buf[..i] == buf[..i - 1] + [buf[i - 1]];
    }
  }

  /** A string emitted with SynchPutString comes out as SynchPutChar would emit its characters. */
  lemma PutStringIsPutChars(out: seq<char>, s: seq<char>)
    requires Nul in s
    ensures PutChars(out, CString(s)) == out + CString(s)
  {
    PutCharsAppends(out, CString(s));
  }

  // ---------------------------------------------------------------------
  // Input
  // ---------------------------------------------------------------------

  /** A character that ends SynchGetString's reading. */
  predicate IsStop(ch: char)
  {
    ch == Eof || ch == '\n' || ch == Nul
  }

  /** The last index SynchGetString may fill: n - 1, and 0 when n < 1. */
  function LastSlot(n: int): (m: nat)
    ensures n >= 1 ==> m == n - 1
    ensures n < 1 ==> m == 0
  {
    if n >= 1 then n - 1 else 0
  }

  /**
   * The index of the slot SynchGetString overwrites with '\0' when it reads
   * from `cursor`: the first one holding a stop character, or `limit`.
   */
  function LineLength(input: nat -> char, cursor: nat, limit: nat): (i: nat)
    ensures i <= limit
    ensures forall p :: cursor <= p < cursor + i ==> !IsStop(input(p))
    ensures i < limit ==> IsStop(input(cursor + i))
    decreases limit
  {
    if limit == 0 then 0
    else
      var m := LineLength(input, cursor, limit - 1);
      if m < limit - 1 || IsStop(input(cursor + m)) then m else limit
  }

  /** The characters SynchGetString keeps: those read before the overwritten slot. */
  function Line(input: nat -> char, cursor: nat, n: int): (s: seq<char>)
    ensures |s| == LineLength(input, cursor, LastSlot(n))
    ensures forall k :: 0 <= k < |s| ==> s[k] == input(cursor + k)
  {
    seq(LineLength(input, cursor, LastSlot(n)), k requires 0 <= k => input(cursor + k))
  }

  /**
   * SynchGetString(s, n). A null buffer: nothing is read. Otherwise it
   * reads one character, then keeps reading while the last one is not EOF,
   * '\n' or '\0' and fewer than n - 1 slots follow it; the last slot read
   * is overwritten with '\0'. So the buffer holds the line without its
   * newline, at most n - 1 characters, exactly one more character than
   * that is consumed, and the slots after the '\0' keep their contents.
   */
  method SynchGetString(s: Option<seq<char>>, n: int, input: nat -> char, cursor: nat)
    returns (s': Option<seq<char>>, cursor': nat)
    requires s.Some? ==> |s.value| >= 1 && |s.value| >= n
    ensures s.None? ==> s' == None && cursor' == cursor
    ensures s.Some? ==> s'.Some? && |s'.value| == |s.value|
    ensures s.Some? ==>
      var i := LineLength(input, cursor, LastSlot(n));
      && cursor' == cursor + i + 1
      && forall k :: 0 <= k < |s.value| ==>
           s'.value[k] == if k < i then input(cursor + k) else if k == i then Nul else s.value[k]
    ensures s.Some? ==> Nul in s'.value && CString(s'.value) == Line(input, cursor, n)
    ensures s.Some? ==> '\n' !in CString(s'.value) && |CString(s'.value)| <= LastSlot(n)
  {
    if s.None? {
      return None, cursor;
    }
    var buf := s.value;
    var i := 0;
    buf := buf[0 := input(cursor)];
    var next := cursor + 1;
    while i < n - 1 && !IsStop(buf[i])
      invariant 0 <= i <= LastSlot(n)
      invariant next == cursor + i + 1
      invariant |buf| == |s.value|
      invariant forall p :: cursor <= p < cursor + i ==> !IsStop(input(p))
      invariant forall k :: 0 <= k < |buf| ==> buf[k] == if k <= i then input(cursor + k) else s.value[k]
    {
      i := i + 1;
      buf := buf[i := input(next)];
      next := next + 1;
    }
    LineLengthIs(input, cursor, LastSlot(n), i);
    buf := buf[i := Nul];
    s', cursor' := Some(buf), next;
    CStringAt(buf, i);
    assert buf[..i] == Line(input, cursor, n);
  }

  /** LineLength is the only index that stops the reading as described. */
  lemma LineLengthIs(input: nat -> char, cursor: nat, limit: nat, i: nat)
    requires i <= limit
    requires forall p :: cursor <= p < cursor + i ==> !IsStop(input(p))
    requires i < limit ==> IsStop(input(cursor + i))
    ensures LineLength(input, cursor, limit) == i
  {
  }

  // ---------------------------------------------------------------------
  // Numbers
  // ---------------------------------------------------------------------

  function DigitChar(d: nat): (ch: char)
    requires d < 10
    ensures '0' <= ch <= '9' && ch as int - '0' as int == d
  {
    ('0' as int + d) as char
  }

  predicate IsDigits(s: seq<char>)
  {
    forall k :: 0 <= k < |s| ==> '0' <= s[k] <= '9'
  }

  /** The decimal digits of m, most significant first, without leading zeros. */
  function Digits(m: nat): (s: seq<char>)
    ensures |s| >= 1 && IsDigits(s)
    ensures |s| > 1 ==> s[0] != '0'
  {
    if m < 10 then [DigitChar(m)] else Digits(m / 10) + [DigitChar(m % 10)]
  }

  /** `%i` of n: a '-' before the digits of a negative number. */
  function Decimal(n: int): (s: seq<char>)
    ensures |s| >= 1 && Nul !in s
    ensures n < 0 <==> s[0] == '-'
  {
    if n < 0 then ['-'] + Digits(-n) else Digits(n)
  }

  /** Reading digits back, most significant first. */
  function ParseDigits(s: seq<char>): (m: nat)
    requires IsDigits(s)
    decreases |s|
  {
    if s == [] then 0 else ParseDigits(s[..|s| - 1]) * 10 + (s[|s| - 1] as int - '0' as int)
  }

  /** Reading a rendered number back, with an optional '-'. */
  function ParseDecimal(s: seq<char>): (n: int)
    requires |s| >= 1
    requires if s[0] == '-' then IsDigits(s[1..]) else IsDigits(s)
  {
    if s[0] == '-' then -(ParseDigits(s[1..]) as int) else ParseDigits(s)
  }

  lemma {:induction false} DigitsRoundTrip(m: nat)
    ensures ParseDigits(Digits(m)) == m
    decreases m
  {
    var s := Digits(m);
    if m < 10 {
      assert s[..0] == [];
    } else {
      DigitsRoundTrip(m / 10);
      assert s[..|s| - 1] == Digits(m / 10);
    }
  }

  /** Rendering a number and reading it back gives the number. */
  lemma DecimalRoundTrip(n: int)
    ensures var s := Decimal(n);
      && (if s[0] == '-' then IsDigits(s[1..]) else IsDigits(s))
      && ParseDecimal(s) == n
  {
    if n < 0 {
      assert Decimal(n)[1..] == Digits(-n);
      DigitsRoundTrip(-n);
    } else {
      DigitsRoundTrip(n);
    }
  }

  function Pow10(k: nat): (p: nat)
    ensures p >= 1
  {
    if k == 0 then 1 else 10 * Pow10(k - 1)
  }

  /** A number below 10^k has at most k digits. */
  lemma {:induction false} DigitsBound(m: nat, k: nat)
    requires 1 <= k && m < Pow10(k)
    ensures |Digits(m)| <= k
    decreases k
  {
    if m >= 10 {
      assert m / 10 < Pow10(k - 1);
      DigitsBound(m / 10, k - 1);
    }
  }

  /** A 32-bit int renders in at most 11 characters, so it fits MAX_INT_SIZE - 1. */
  lemma Int32Fits(n: int)
    requires IsInt32(n)
    ensures |Decimal(n)| <= 11 < MaxIntSize
  {
    assert Pow10(10) == 10000000000;
    if n < 0 {
      DigitsBound(-n, 10);
    } else {
      DigitsBound(n, 10);
    }
  }

  /** snprintf(buffer, size, ...): at most size - 1 characters, then '\0'. */
  function Snprintf(s: seq<char>, size: nat): (buf: seq<char>)
    requires size >= 1 && Nul !in s
    ensures Nul in buf && |buf| <= size
    ensures CString(buf) == if |s| < size then s else s[..size - 1]
  {
    var t := if |s| < size then s else s[..size - 1];
    CStringOfTerminated(t, []);
    assert t + [Nul] + [] == t + [Nul];
    t + [Nul]
  }

  /**
   * SynchPutInt(n): the `%i` rendering, cut to MAX_INT_SIZE - 1
   * characters, emitted with SynchPutString. A 32-bit int always fits, so
   * the whole rendering comes out and reads back as n.
   */
  method SynchPutInt(out: seq<char>, n: int) returns (out': seq<char>)
    requires IsInt32(n)
    ensures out' == out + Decimal(n)
    ensures |out'| - |out| <= MaxIntSize - 1
    ensures ParseDecimal(out'[|out|..]) == n
  {
    var buf := Snprintf(Decimal(n), MaxIntSize);
    Int32Fits(n);
    out' := SynchPutString(out, Some(buf));
    DecimalRoundTrip(n);
    assert out'[|out|..] == Decimal(n);
  }
}

=== FILE: cstrings.dfy ===
/**
 * NUL-terminated character buffers, as the kernel's C code sees them: a
 * buffer holds a string when it contains a '\0', and the string is the
 * part before the first one.
 */
module CStrings {

  const Nul: char := '\0'

  /** The index of the first '\0' of `buf` (C's strlen). */
  function StrLen(buf: seq<char>): (n: nat)
    requires Nul in buf
    ensures n < |buf| && buf[n] == Nul
    ensures forall k :: 0 <= k < n ==> buf[k] != Nul
  {
    if buf[0] == Nul then 0
    else
      assert Nul in buf[1..] by {
        var k :| 0 <= k < |buf| && buf[k] == Nul;
        assert buf[1..][k - 1] == Nul;
      }
      1 + StrLen(buf[1..])
  }

  /** The string a terminated buffer holds. */
  function CString(buf: seq<char>): (s: seq<char>)
    requires Nul in buf
    ensures Nul !in s
    ensures |s| < |buf| && s == buf[..|s|] && buf[|s|] == Nul
  {
    buf[..StrLen(buf)]
  }

  /** A NUL-free string followed by its terminator holds exactly that string. */
  lemma CStringOfTerminated(s: seq<char>, rest: seq<char>)
    requires Nul !in s
    ensures Nul in s + [Nul] + rest
    ensures CString(s + [Nul] + rest) == s
  {
    var b := s + [Nul] + rest;
    assert b[|s|] == Nul;
    assert forall k :: 0 <= k < |s| ==> b[k] == s[k];
  }

  /** A buffer whose first '\0' is at n holds its first n characters. */
  lemma CStringAt(buf: seq<char>, n: nat)
    requires n < |buf| && buf[n] == Nul
    requires forall k :: 0 <= k < n ==> buf[k] != Nul
    ensures Nul in buf
    ensures CString(buf) == buf[..n]
  {
  }
}

=== FILE: frames.dfy ===
/**
 * The FrameProvider: the pool of physical frames, one bit per frame, with
 * frame 0 reserved at start-up. Allocation picks among the free frames with
 * a one-pass reservoir draw. The C library's rand() becomes an oracle:
 * `rand(k)` is the k-th number it returns, and `cursor` counts the numbers
 * already drawn. The provider's lock is only held inside one transition, so
 * it is left implicit.
 */
module Frames {
  import opened Machine
  import opened BitMaps

  datatype FrameProvider = FrameProvider(frames: BitMap)

  /** nb_frames. */
  function NumFrames(fp: FrameProvider): nat
  {
    |fp.frames.bits|
  }

  /** FrameProvider(numFrames): every frame free except frame 0, which is reserved. */
  function NewProvider(numFrames: nat): (fp: FrameProvider)
    requires numFrames >= 1
    ensures NumFrames(fp) == numFrames
    ensures fp.frames.bits[0]
    ensures forall i :: 1 <= i < numFrames ==> !fp.frames.bits[i]
    ensures NumAvailFrame(fp) == numFrames - 1
  {
    FrameProvider(Mark(New(numFrames), 0))
  }

  /** NumAvailFrame(): the number of free frames. */
  function NumAvailFrame(fp: FrameProvider): nat
  {
    NumClear(fp.frames)
  }

  /** IsFrameAvail(): whether some frame is free. */
  function IsFrameAvail(fp: FrameProvider): (r: bool)
    ensures r <==> exists i :: 0 <= i < NumFrames(fp) && !fp.frames.bits[i]
  {
    ZeroCountAllSet(fp.frames.bits);
    NumAvailFrame(fp) > 0
  }

  /** NumAvailFrame() counts the free frames, and IsFrameAvail() holds exactly when that count is positive. */
  lemma NumAvailFrameCountsFree(fp: FrameProvider)
    ensures NumAvailFrame(fp) == |set i: nat | i < NumFrames(fp) && !fp.frames.bits[i]|
    ensures IsFrameAvail(fp) <==> NumAvailFrame(fp) > 0
  {
    NumClearIsClearBits(fp.frames.bits);
  }

  /** How many free frames lie below frame i: the scan draws once per free frame. */
  function FreeBefore(bits: seq<bool>, i: nat): nat
    requires i <= |bits|
  {
    Count(bits[..i])
  }

  /**
   * Whether the scan selects frame i when it reaches it: i is free and its
   * draw, reduced modulo the number of free frames seen so far (i included),
   * is 0.
   */
  predicate Hit(bits: seq<bool>, rand: nat -> nat, cursor: nat, i: nat)
    requires i < |bits|
  {
    !bits[i] && rand(cursor + FreeBefore(bits, i)) % (FreeBefore(bits, i) + 1) == 0
  }

  /** The loop of GetEmptyFrame over frames [0, i): the frame selected so far and the free frames seen. */
  datatype Scanned = Scanned(selected: int, seen: nat)

  function Scan(bits: seq<bool>, rand: nat -> nat, cursor: nat, i: nat): Scanned
    requires i <= |bits|
    decreases i
  {
    if i == 0 then Scanned(-1, 0)
    else
      var before := Scan(bits, rand, cursor, i - 1);
      if bits[i - 1] then before
      else if rand(cursor + before.seen) % (before.seen + 1) == 0 then Scanned(i - 1, before.seen + 1)
      else Scanned(before.selected, before.seen + 1)
  }

  /**
   * The scan of [0, i) has drawn once per free frame; it has selected a
   * frame exactly when it saw a free one (the first free frame's draw is
   * reduced modulo 1, so it always hits); and what it selected is the last
   * frame below i that hit.
   */
  lemma {:induction false} ScanSelectsLastHit(bits: seq<bool>, rand: nat -> nat, cursor: nat, i: nat)
    requires i <= |bits|
    ensures Scan(bits, rand, cursor, i).seen == FreeBefore(bits, i)
    ensures Scan(bits, rand, cursor, i).selected == -1 <==> FreeBefore(bits, i) == 0
    ensures var s := Scan(bits, rand, cursor, i).selected;
      s != -1 ==>
        && 0 <= s < i && Hit(bits, rand, cursor, s)
        && forall j :: s < j < i ==> !Hit(bits, rand, cursor, j)
    ensures Scan(bits, rand, cursor, i).selected == -1 ==>
      forall j :: 0 <= j < i ==> !Hit(bits, rand, cursor, j)
    decreases i
  {
    if i > 0 {
      ScanSelectsLastHit(bits, rand, cursor, i - 1);
      assert bits[..i][..i - 1] == bits[..i - 1];
      assert FreeBefore(bits, i) == FreeBefore(bits, i - 1) + (if bits[i - 1] then 0 else 1);
    }
  }

  /** The result of GetEmptyFrame: the frame (or -1), the provider, main memory and the rand cursor after it. */
  datatype Allocation = Allocation(frame: int, provider: FrameProvider, mem: seq<Byte>, cursor: nat)

  /**
   * GetEmptyFrame(). It fails with -1, changing nothing, exactly when no
   * frame is free. Otherwise it returns the last free frame whose draw hit,
   * which was free; only that frame's bit is set, its PageSize bytes of
   * main memory are zeroed, and one fewer frame is available. Each free
   * frame consumes one draw.
   */
  function GetEmptyFrame(fp: FrameProvider, mem: seq<Byte>, rand: nat -> nat, cursor: nat): (r: Allocation)
    requires |mem| >= NumFrames(fp) * PageSize
    ensures r.cursor == cursor + NumAvailFrame(fp)
    ensures r.frame == -1 <==> NumAvailFrame(fp) == 0
    ensures r.frame == -1 ==> r.provider == fp && r.mem == mem
    ensures r.frame != -1 ==>
      && 0 <= r.frame < NumFrames(fp) && !fp.frames.bits[r.frame]
      && Hit(fp.frames.bits, rand, cursor, r.frame)
      && (forall j :: r.frame < j < NumFrames(fp) ==> !Hit(fp.frames.bits, rand, cursor, j))
      && r.provider.frames.bits == fp.frames.bits[r.frame := true]
      && NumAvailFrame(r.provider) == NumAvailFrame(fp) - 1
      && |r.mem| == |mem|
      && (forall a :: 0 <= a < |mem| ==>
            r.mem[a] == if r.frame * PageSize <= a < (r.frame + 1) * PageSize then 0 else mem[a])
  {
    var bits := fp.frames.bits;
    var n := |bits|;
    ScanSelectsLastHit(bits, rand, cursor, n);
    assert bits[..n] == bits;
    var s := Scan(bits, rand, cursor, n);
    if s.selected == -1 then
      Allocation(-1, fp, mem, cursor + s.seen)
    else
      FrameFits(s.selected, n);
      Allocation(s.selected, FrameProvider(Mark(fp.frames, s.selected)),
                 ZeroFrame(mem, s.selected), cursor + s.seen)
  }

  /** ReleaseFrame(frame): only that frame's bit is cleared, so one more frame is available if it was in use. */
  function ReleaseFrame(fp: FrameProvider, frame: nat): (r: FrameProvider)
    requires frame < NumFrames(fp)
    ensures r.frames.bits == fp.frames.bits[frame := false]
    ensures NumAvailFrame(r) == if fp.frames.bits[frame] then NumAvailFrame(fp) + 1 else NumAvailFrame(fp)
  {
    FrameProvider(Clear(fp.frames, frame))
  }

  /** Allocation succeeds whenever some frame is free. */
  lemma AllocationSucceedsWhenAvailable(fp: FrameProvider, mem: seq<Byte>, rand: nat -> nat, cursor: nat)
    requires |mem| >= NumFrames(fp) * PageSize
    requires IsFrameAvail(fp)
    ensures GetEmptyFrame(fp, mem, rand, cursor).frame != -1
  {
  }

  /** Two allocations in a row never hand out the same frame. */
  lemma NoFrameTwice(fp: FrameProvider, mem: seq<Byte>, rand: nat -> nat, cursor: nat)
    requires |mem| >= NumFrames(fp) * PageSize
    ensures var a := GetEmptyFrame(fp, mem, rand, cursor);
      var b := GetEmptyFrame(a.provider, a.mem, rand, a.cursor);
      a.frame != -1 ==> b.frame != a.frame
  {
  }

  /** Releasing a frame just handed out gives back the provider as it was. */
  lemma AllocateReleaseRoundTrip(fp: FrameProvider, mem: seq<Byte>, rand: nat -> nat, cursor: nat)
    requires |mem| >= NumFrames(fp) * PageSize
    ensures var a := GetEmptyFrame(fp, mem, rand, cursor);
      a.frame != -1 ==> ReleaseFrame(a.provider, a.frame) == fp
  {
    var a := GetEmptyFrame(fp, mem, rand, cursor);
    if a.frame != -1 {
      assert fp.frames.bits[a.frame := true][a.frame := false] == fp.frames.bits;
    }
  }
}

=== FILE: kernel.dfy ===
/**
 * The kernel-wide process bookkeeping declared in threads/system.h: one
 * slot, lock and condition per process identifier, and the count of live
 * processes. Every process lock is idle between system calls, since each
 * call is one atomic transition that takes and gives back the lock.
 */
module Kernel {
  import opened Synch

  /** TEMP_MAXPROC_NUMBER: the number of process slots. */
  const MaxProcesses: nat := 64

  /** `numProcess` is an unsigned 32-bit counter. */
  const Word: nat := 0x1_0000_0000

  /**
   * processTable (1 while the process runs, 0 once it has exited),
   * processLocks, processConds and numProcess.
   */
  datatype ProcessTable = ProcessTable(slots: seq<int>, locks: seq<Lock>, conds: seq<Condition>, numProcess: nat)

  predicate ProcessTableValid(pt: ProcessTable)
  {
    && |pt.slots| == MaxProcesses
    && |pt.locks| == MaxProcesses
    && |pt.conds| == MaxProcesses
    && (forall i :: 0 <= i < MaxProcesses ==> pt.locks[i] == NewLock())
    && (forall i :: 0 <= i < MaxProcesses ==> CondValid(pt.conds[i]))
    && pt.numProcess < Word
  }
}

=== FILE: libgcc.dfy ===
/**
 * The freestanding byte helpers a user program links against: memset,
 * memcpy and memmove. The user program's memory is one sequence of bytes
 * and a pointer is an index into it; each routine returns the memory it
 * leaves behind together with the pointer it returns.
 */
module LibGcc {
  import opened Machine

  /** [p, p + n) lies inside the memory. */
  predicate InBounds(mem: seq<Byte>, p: nat, n: nat)
  {
    p + n <= |mem|
  }

  /** Storing an int through a `char *` keeps its low eight bits. */
  function ToChar(c: int): (b: Byte)
    ensures (b - c) % 256 == 0
  {
    c % 256
  }

  /** The memory with [dest, dest + n) holding the bytes that were at [src, src + n). */
  function Moved(mem: seq<Byte>, dest: nat, src: nat, n: nat): (r: seq<Byte>)
    requires InBounds(mem, dest, n) && InBounds(mem, src, n)
    ensures |r| == |mem|
    ensures r[dest..dest + n] == mem[src..src + n]
    ensures r[..dest] == mem[..dest] && r[dest + n..] == mem[dest + n..]
  {
    mem[..dest] + mem[src..src + n] + mem[dest + n..]
  }

  /**
   * memset(s, c, n): the n bytes from s all hold (char)c, every other byte
   * is as it was, and s is returned.
   */
  method Memset(mem: seq<Byte>, s: nat, c: int, n: nat) returns (ret: nat, mem': seq<Byte>)
    requires InBounds(mem, s, n)
    ensures ret == s
    ensures |mem'| == |mem|
    ensures forall a :: 0 <= a < |mem| ==> mem'[a] == if s <= a < s + n then ToChar(c) else mem[a]
  {
    mem' := mem;
    var i := 0;
    while i < n
      invariant 0 <= i <= n
      invariant |mem'| == |mem|
      invariant forall a :: 0 <= a < |mem| ==> mem'[a] == if s <= a < s + i then ToChar(c) else mem[a]
    {
      mem' := mem'[s + i := ToChar(c)];
      i := i + 1;
    }
    ret := s;
  }

  /**
   * How far behind its destination the forward copy reads: d when src lies
   * d bytes below dest, and otherwise more than n, so that no byte of the
   * copy reads one the copy itself wrote.
   */
  function Lag(dest: nat, src: nat, n: nat): (d: nat)
    ensures d > 0
    ensures src < dest ==> d == dest - src
    ensures dest <= src ==> d > n
  {
    if src < dest then dest - src else n + 1
  }

  /** The offset k folded back by whole multiples of d until it lies below d. */
  function Origin(k: nat, d: nat): (j: nat)
    requires d > 0
    ensures j <= k && j < d
    ensures k < d ==> j == k
    decreases k
  {
    if k < d then k else Origin(k - d, d)
  }

  /**
   * memcpy(dest, src, n), copying front to back. Every byte outside
   * [dest, dest + n) is unchanged. The destination byte at offset k holds
   * the original source byte at offset k folded back by the lag: when the
   * ranges are disjoint or src lies at or above dest, that is the source
   * byte at offset k itself; when src lies d bytes below dest and the
   * ranges overlap, the first d source bytes repeat along the destination.
   */
  method Memcpy(mem: seq<Byte>, dest: nat, src: nat, n: nat) returns (ret: nat, mem': seq<Byte>)
    requires InBounds(mem, dest, n) && InBounds(mem, src, n)
    ensures ret == dest
    ensures |mem'| == |mem|
    ensures forall a :: 0 <= a < |mem| && !(dest <= a < dest + n) ==> mem'[a] == mem[a]
    ensures forall a :: dest <= a < dest + n ==> mem'[a] == mem[src + Origin(a - dest, Lag(dest, src, n))]
    ensures dest <= src || src + n <= dest ==> mem' == Moved(mem, dest, src, n)
  {
    var d := Lag(dest, src, n);
    mem' := mem;
    var i := 0;
    while i < n
      invariant 0 <= i <= n
      invariant |mem'| == |mem|
      invariant forall a :: 0 <= a < |mem| && !(dest <= a < dest + i) ==> mem'[a] == mem[a]
      invariant forall a :: dest <= a < dest + i ==> mem'[a] == mem[src + Origin(a - dest, d)]
    {
      CopyReads(mem, mem', dest, src, n, i);
      mem' := mem'[dest + i := mem'[src + i]];
      i := i + 1;
    }
    ret := dest;
    if dest <= src || src + n <= dest {
      UnfoldedCopyIsMoved(mem, mem', dest, src, n);
    }
  }

  /** When the copy never reads a byte it wrote, its result is Moved. */
  lemma UnfoldedCopyIsMoved(mem: seq<Byte>, mem': seq<Byte>, dest: nat, src: nat, n: nat)
    requires InBounds(mem, dest, n) && InBounds(mem, src, n) && |mem'| == |mem|
    requires dest <= src || src + n <= dest
    requires forall a :: 0 <= a < |mem| && !(dest <= a < dest + n) ==> mem'[a] == mem[a]
    requires forall a :: dest <= a < dest + n ==> mem'[a] == mem[src + Origin(a - dest, Lag(dest, src, n))]
    ensures mem' == Moved(mem, dest, src, n)
  {
    forall a | dest <= a < dest + n ensures mem'[a] == mem[a - dest + src] {
      assert Origin(a - dest, Lag(dest, src, n)) == a - dest;
    }
    CopiedIsMoved(mem, mem', dest, src, n);
  }

  /**
   * The byte the forward copy reads at step i, after i bytes are copied:
   * the original source byte at offset i folded back by the lag.
   */
  lemma CopyReads(mem: seq<Byte>, mem': seq<Byte>, dest: nat, src: nat, n: nat, i: nat)
    requires InBounds(mem, dest, n) && InBounds(mem, src, n) && i < n && |mem'| == |mem|
    requires forall a :: 0 <= a < |mem| && !(dest <= a < dest + i) ==> mem'[a] == mem[a]
    requires forall a :: dest <= a < dest + i ==> mem'[a] == mem[src + Origin(a - dest, Lag(dest, src, n))]
    ensures mem'[src + i] == mem[src + Origin(i, Lag(dest, src, n))]
  {
    var d := Lag(dest, src, n);
    if src < dest && i >= d {
      assert src + i == dest + (i - d);
    } else {
      assert !(dest <= src + i < dest + i);
    }
  }

  /** A memory agreeing with mem outside [dest, dest + n) and holding the original source bytes inside is Moved. */
  lemma CopiedIsMoved(mem: seq<Byte>, mem': seq<Byte>, dest: nat, src: nat, n: nat)
    requires InBounds(mem, dest, n) && InBounds(mem, src, n) && |mem'| == |mem|
    requires forall a :: 0 <= a < |mem| && !(dest <= a < dest + n) ==> mem'[a] == mem[a]
    requires forall a :: dest <= a < dest + n ==> mem'[a] == mem[a - dest + src]
    ensures mem' == Moved(mem, dest, src, n)
  {
    var m := Moved(mem, dest, src, n);
    forall a | 0 <= a < |mem| ensures mem'[a] == m[a] {
      if dest <= a < dest + n {
        assert m[a] == m[dest..dest + n][a - dest];
      } else if a < dest {
        assert m[a] == m[..dest][a];
      } else {
        assert m[a] == m[dest + n..][a - dest - n];
      }
    }
  }

  /**
   * memmove(dest, src, n): when src lies at or above dest it is memcpy;
   * otherwise it copies back to front. Either way the destination ends up
   * holding the original source bytes, even when the ranges overlap, no
   * other byte changes, and dest is returned.
   */
  method Memmove(mem: seq<Byte>, dest: nat, src: nat, n: nat) returns (ret: nat, mem': seq<Byte>)
    requires InBounds(mem, dest, n) && InBounds(mem, src, n)
    ensures ret == dest
    ensures mem' == Moved(mem, dest, src, n)
  {
    if src >= dest {
      ret, mem' := Memcpy(mem, dest, src, n);
      return;
    }
    mem' := mem;
    var i := 0;
    while i < n
      invariant 0 <= i <= n
      invariant |mem'| == |mem|
      invariant forall a :: 0 <= a < |mem| && !(dest + n - i <= a < dest + n) ==> mem'[a] == mem[a]
      invariant forall a :: dest + n - i <= a < dest + n ==> mem'[a] == mem[a - dest + src]
    {
      var k := n - 1 - i;
      mem' := mem'[dest + k := mem'[src + k]];
      i := i + 1;
    }
    ret := dest;
    CopiedIsMoved(mem, mem', dest, src, n);
  }
}

=== FILE: machine.dfy ===
/**
 * The few facts about the simulated MIPS machine that the kernel's
 * bookkeeping depends on. The emulator itself is not modelled: main memory
 * is a sequence of bytes and the page size is a positive constant left
 * unspecified. The address-space operations additionally require that at
 * least one thread stack of two pages fits in UserStackSize, which bounds
 * the page size by 524.
 */
module Machine {

  type Byte = b: int | 0 <= b < 256

  type Positive = x: nat | 0 < x witness 1

  /** Bytes per page and per physical frame. */
  const PageSize: Positive

  /** Frames [0, frames) fit in a memory of frames * PageSize bytes. */
  lemma FrameFits(frame: nat, frames: nat)
    requires frame < frames
    ensures (frame + 1) * PageSize <= frames * PageSize
  {
    assert frame + 1 <= frames;
  }

  /** `bzero(&mem[frame * PageSize], PageSize)`. */
  function ZeroFrame(mem: seq<Byte>, frame: nat): (r: seq<Byte>)
    requires (frame + 1) * PageSize <= |mem|
    ensures |r| == |mem|
    ensures forall a :: 0 <= a < |mem| ==>
      r[a] == if frame * PageSize <= a < (frame + 1) * PageSize then 0 else mem[a]
  {
    mem[..frame * PageSize] + seq(PageSize, _ => 0) + mem[(frame + 1) * PageSize..]
  }
}

=== FILE: machinestrings.dfy ===
/**
 * The two bounded string copies between the kernel and a user program's
 * memory. User memory is seen through the page table: an address either
 * translates, and then holds a character, or it does not, and then
 * ReadMem or WriteMem fails. So memory is a partial map, and a failed
 * access is an address outside its domain.
 */
module MachineStrings {
  import opened CStrings

  type VirtualMemory = map<int, char>

  // ---------------------------------------------------------------------
  // Reading a string out of user memory
  // ---------------------------------------------------------------------

  /**
   * How many characters copyStringFromMachine copies before it writes the
   * terminator: it stops at the first '\0' or unreadable address, and after
   * `limit` characters.
   */
  function FromLength(vm: VirtualMemory, from: int, limit: nat): (n: nat)
    ensures n <= limit
    ensures forall a :: from <= a < from + n ==> a in vm && vm[a] != Nul
    ensures n < limit ==> from + n !in vm || vm[from + n] == Nul
    decreases limit
  {
    if limit == 0 then 0
    else
      var m := FromLength(vm, from, limit - 1);
      if m < limit - 1 then m
      else if from + m in vm && vm[from + m] != Nul then limit
      else m
  }

  /** The n readable characters at `from`. */
  function ReadChars(vm: VirtualMemory, from: int, n: nat): (s: seq<char>)
    requires forall a :: from <= a < from + n ==> a in vm
    ensures |s| == n && forall k :: 0 <= k < n ==> s[k] == vm[from + k]
  {
    if n == 0 then [] else ReadChars(vm, from, n - 1) + [vm[from + n - 1]]
  }

  /** The string copyStringFromMachine delivers from address `from` into a buffer of `size` bytes. */
  function MachineString(vm: VirtualMemory, from: int, size: nat): (s: seq<char>)
    requires size >= 1
    ensures Nul !in s && |s| < size
  {
    ReadChars(vm, from, FromLength(vm, from, size - 1))
  }

  /**
   * copyStringFromMachine(from, to, size). The buffer always ends up holding
   * a '\0' within its first `size` bytes: after the characters read, which
   * stop at the first '\0', the first unreadable address or after size - 1
   * characters. The bytes after the terminator are left as they were.
   * `size - 1` is unsigned in the source, so size 0 is excluded.
   */
  method CopyStringFromMachine(vm: VirtualMemory, from: int, buf: seq<char>, size: nat) returns (to: seq<char>)
    requires 1 <= size <= |buf|
    ensures |to| == |buf|
    ensures var n := FromLength(vm, from, size - 1);
      && to[n] == Nul
      && (forall k :: 0 <= k < n ==> to[k] == vm[from + k])
      && (forall k :: n < k < |buf| ==> to[k] == buf[k])
    ensures Nul in to[..size]
    ensures Nul in to && CString(to) == MachineString(vm, from, size)
  {
    to := buf;
    var i := 0;
    while i < size - 1
      invariant 0 <= i <= size - 1
      invariant |to| == |buf|
      invariant forall a :: from <= a < from + i ==> a in vm && vm[a] != Nul
      invariant forall k :: 0 <= k < i ==> to[k] == vm[from + k]
      invariant forall k :: i <= k < |buf| ==> to[k] == buf[k]
    {
      if from + i !in vm {
        break;
      }
      to := to[i := vm[from + i]];
      if to[i] == Nul {
        FinishRead(vm, from, size, to, i);
        return;
      }
      i := i + 1;
    }
    to := to[i := Nul];
    FinishRead(vm, from, size, to, i);
  }

  /** Where the copy stopped, the buffer holds exactly the string MachineString describes. */
  lemma FinishRead(vm: VirtualMemory, from: int, size: nat, to: seq<char>, i: nat)
    requires 1 <= size <= |to| && i <= size - 1
    requires forall a :: from <= a < from + i ==> a in vm && vm[a] != Nul
    requires forall k :: 0 <= k < i ==> to[k] == vm[from + k]
    requires i < size - 1 ==> from + i !in vm || vm[from + i] == Nul
    requires to[i] == Nul
    ensures FromLength(vm, from, size - 1) == i
    ensures Nul in to[..size]
    ensures Nul in to && CString(to) == MachineString(vm, from, size)
  {
    var n := FromLength(vm, from, size - 1);
    assert to[..size][i] == Nul;
    CStringAt(to, i);
    assert to[..i] == ReadChars(vm, from, n);
  }

  // ---------------------------------------------------------------------
  // Writing a string into user memory
  // ---------------------------------------------------------------------

  /** The characters copyStringToMachine copies before the terminator: up to the first '\0', at most `limit`. */
  function ToLength(src: seq<char>, limit: nat): (n: nat)
    requires limit <= |src| || Nul in src
    ensures n <= limit
    ensures forall k :: 0 <= k < n ==> k < |src| && src[k] != Nul
    ensures n < limit ==> n < |src| && src[n] == Nul
    decreases limit
  {
    if limit == 0 then 0
    else
      var m := ToLength(src, limit - 1);
      if m < limit - 1 then m
      else if m < |src| && src[m] == Nul then m
      else limit
  }

  /**
   * vm' is vm with the string s written at `to` and its terminator right
   * after; every written address was writable and nothing else changed.
   */
  predicate Stored(vm: VirtualMemory, vm': VirtualMemory, to: int, s: seq<char>)
  {
    && vm'.Keys == vm.Keys
    && (forall a :: to <= a <= to + |s| ==> a in vm)
    && (forall a :: a in vm ==>
          vm'[a] == if to <= a < to + |s| then s[a - to] else if a == to + |s| then Nul else vm[a])
  }

  /** The first offset in [0, n] whose address is not writable, or n + 1. */
  function FirstUnwritable(vm: VirtualMemory, to: int, n: nat): (p: nat)
    ensures p <= n + 1
    ensures forall a :: to <= a < to + p ==> a in vm
    ensures p <= n ==> to + p !in vm
    decreases n
  {
    var m := if n == 0 then 0 else FirstUnwritable(vm, to, n - 1);
    if m < n then m
    else if to + n in vm then n + 1
    else n
  }

  /**
   * The cap copyStringToMachine puts on the copy: `size - 1` computed on an
   * unsigned size, so size 0 wraps round to 2^32 - 1.
   */
  function CopyLimit(size: nat): (limit: nat)
    ensures size >= 1 ==> limit == size - 1
    ensures size == 0 ==> limit == 0xFFFF_FFFF
  {
    if size == 0 then 0xFFFF_FFFF else size - 1
  }

  /**
   * copyStringToMachine(from, to, size). With n the length of the source
   * string capped at CopyLimit(size), it writes the n characters and then a
   * '\0' and returns n; if some address among those n + 1 is not writable
   * it returns -1, having written the characters before that address. The
   * source buffer must hold a '\0' or CopyLimit(size) characters.
   */
  method CopyStringToMachine(src: seq<char>, vm: VirtualMemory, to: int, size: nat) returns (r: int, vm': VirtualMemory)
    requires CopyLimit(size) <= |src| || Nul in src
    ensures vm'.Keys == vm.Keys
    ensures var n := ToLength(src, CopyLimit(size));
      && (r == -1 <==> FirstUnwritable(vm, to, n) <= n)
      && (r != -1 ==> r == n && Stored(vm, vm', to, src[..n]))
    ensures r == -1 ==>
      var p := FirstUnwritable(vm, to, ToLength(src, CopyLimit(size)));
      forall a :: a in vm ==> vm'[a] == if to <= a < to + p then src[a - to] else vm[a]
  {
    var limit := CopyLimit(size);
    ghost var n := ToLength(src, limit);
    ghost var p := FirstUnwritable(vm, to, n);
    vm' := vm;
    var i := 0;
    var done := false;
    while i < limit && !done
      invariant 0 <= i <= limit
      invariant vm'.Keys == vm.Keys
      invariant forall k :: 0 <= k < i ==> k < |src| && src[k] != Nul
      invariant forall a :: to <= a < to + i ==> a in vm
      invariant done ==> i < |src| && src[i] == Nul && to + i in vm
      invariant forall a :: a in vm ==>
        vm'[a] == if to <= a < to + i then src[a - to] else if done && a == to + i then Nul else vm[a]
      decreases limit - i, if done then 0 else 1
    {
      if to + i !in vm' {
        assert i <= n && p == i;
        return -1, vm';
      }
      vm' := vm'[to + i := src[i]];
      if src[i] == Nul {
        done := true;
      } else {
        i := i + 1;
      }
    }
    assert i == n;
    if to + i !in vm' {
      return -1, vm';
    }
    vm' := vm'[to + i := Nul];
    assert src[..n] == src[..i];
    return i, vm';
  }

  /**
   * With size 0 the cap wraps round, so the whole C string of the source
   * (up to 2^32 - 1 characters) is copied.
   */
  lemma ZeroSizeCopiesWholeString(src: seq<char>)
    requires Nul in src && StrLen(src) <= 0xFFFF_FFFF
    ensures ToLength(src, CopyLimit(0)) == StrLen(src)
  {
  }

  /**
   * Reading back a string just stored gives it back, provided it and its
   * terminator fit in the reading buffer.
   */
  lemma ReadBackStored(vm: VirtualMemory, vm': VirtualMemory, to: int, s: seq<char>, size: nat)
    requires Stored(vm, vm', to, s)
    requires Nul !in s && |s| < size
    ensures FromLength(vm', to, size - 1) == |s|
    ensures MachineString(vm', to, size) == s
  {
    forall k | 0 <= k < |s| ensures to + k in vm' && vm'[to + k] == s[k] {
      assert vm'[to + k] == s[(to + k) - to];
    }
    assert vm'[to + |s|] == Nul;
    var n := FromLength(vm', to, size - 1);
    assert n == |s|;
  }

  /**
   * A string written out by copyStringToMachine and read back by
   * copyStringFromMachine with the same size comes back as the source's
   * C string cut to size - 1 characters.
   */
  lemma StringRoundTrip(src: seq<char>, vm: VirtualMemory, vm': VirtualMemory, to: int, size: nat)
    requires size >= 1 && (size - 1 <= |src| || Nul in src)
    requires Stored(vm, vm', to, src[..ToLength(src, size - 1)])
    ensures MachineString(vm', to, size) == src[..ToLength(src, size - 1)]
    ensures Nul in src ==> |CString(src)| < size ==> MachineString(vm', to, size) == CString(src)
  {
    var n := ToLength(src, size - 1);
    ReadBackStored(vm, vm', to, src[..n], size);
    if Nul in src && |CString(src)| < size {
      assert n == |CString(src)|;
    }
  }
}

=== FILE: opt.dfy ===
/** A value that may be absent: a null pointer, an unassigned field, a missing reader. */
module Opt {

  datatype Option<+T> = None | Some(value: T)
}

=== FILE: shell.dfy ===
/**
 * The default shell's command decoder, its exit test and the directory
 * stack shown in its prompt. The decoder reuses one Commande object, so the
 * two 255-character argument fields keep whatever an earlier command left
 * in them; the decoder's input is the whole 255-character line buffer,
 * including whatever lies after the line's terminator.
 */
module Shell {
  import opened CStrings

  /** Size of the line buffer and of each argument field. */
  const BufferSize: nat := 255

  /** Scanning stops before this input index. */
  const ScanLimit: nat := 254

  /** Number of directory-name buffers the shell allocates for its prompt. */
  const DirSlots: nat := 15

  /** The `what` codes the decoder produces. */
  datatype Kind = Unknown | Exec | Cd | Help | Cp | Print | Remove | Ls | D | Test | NewDir | NewFile

  /** A Commande: what it decoded and its two argument fields txt[0] and txt[1]. */
  datatype Command = Command(what: Kind, first: seq<char>, second: seq<char>)

  predicate CommandValid(c: Command)
  {
    |c.first| == BufferSize && |c.second| == BufferSize
  }

  // ---------------------------------------------------------------------
  // Argument scanning
  // ---------------------------------------------------------------------

  /**
   * Where scanning from index i stops: at ScanLimit, at a '\0', or (when
   * `atSpace`) at a space.
   */
  function Stop(line: seq<char>, i: nat, atSpace: bool): (e: nat)
    requires |line| == BufferSize && i <= BufferSize
    ensures i <= e <= if i < ScanLimit then ScanLimit else i
    ensures forall k :: i <= k < e ==> line[k] != Nul && (atSpace ==> line[k] != ' ')
    ensures e < ScanLimit ==> line[e] == Nul || (atSpace && line[e] == ' ')
    decreases BufferSize - i
  {
    if i >= ScanLimit || line[i] == Nul || (atSpace && line[i] == ' ') then i
    else Stop(line, i + 1, atSpace)
  }

  /**
   * buf' is buf with `line[from..from + n]` copied to its front and a '\0'
   * at index `term`; every other character is kept.
   */
  predicate Written(buf': seq<char>, buf: seq<char>, line: seq<char>, from: nat, n: nat, term: nat)
    requires from + n <= |line|
  {
    && |buf'| == |buf|
    && n <= term < |buf|
    && forall k :: 0 <= k < |buf| ==>
         buf'[k] == if k < n then line[from + k] else if k == term then Nul else buf[k]
  }

  /** One scanning loop: copy line[i..] to buf[previ..] until it stops. */
  function CopyWord(line: seq<char>, i: nat, previ: nat, buf: seq<char>, atSpace: bool): (r: (nat, seq<char>))
    requires |line| == BufferSize && |buf| == BufferSize
    requires previ <= i <= BufferSize
    ensures r.0 == Stop(line, i, atSpace)
    ensures |r.1| == BufferSize
    ensures forall k :: 0 <= k < BufferSize ==>
      r.1[k] == if previ <= k < previ + (r.0 - i) then line[k - previ + i] else buf[k]
    decreases BufferSize - i
  {
    if i >= ScanLimit || line[i] == Nul || (atSpace && line[i] == ' ') then (i, buf)
    else CopyWord(line, i + 1, previ + 1, buf[previ := line[i]], atSpace)
  }

  /**
   * The argument of cd, nd and r: the rest of the line from `start`,
   * spaces included, in txt[0] with its '\0' after it. txt[1] becomes empty.
   */
  predicate WholeArgument(line: seq<char>, start: nat, c: Command, r: Command)
    requires |line| == BufferSize && start <= BufferSize && CommandValid(c)
  {
    var e := Stop(line, start, false);
    && Written(r.first, c.first, line, start, e - start, e - start)
    && r.second == c.second[0 := Nul]
  }

  /**
   * The arguments of x, cp and nf. Without a space, as WholeArgument. At
   * the first space, found at index e, txt[0] gets the characters before it
   * and its '\0' at index e of txt[0], not right after them; txt[1] gets
   * the character after the space unconditionally and then the rest of the
   * line, later spaces included, with its '\0'.
   */
  predicate SplitArguments(line: seq<char>, start: nat, c: Command, r: Command)
    requires |line| == BufferSize && start <= BufferSize && CommandValid(c)
  {
    var e := Stop(line, start, true);
    if e < ScanLimit && line[e] == ' ' then
      var e2 := Stop(line, e + 2, false);
      && Written(r.first, c.first, line, start, e - start, e)
      && Written(r.second, c.second, line, e + 1, e2 - e - 1, e2 - e - 1)
    else
      && Written(r.first, c.first, line, start, e - start, e - start)
      && r.second == c.second[0 := Nul]
  }

  /** Both loops of the cd, nd and r cases, with the closing '\0' and the final `txt[1][0] = '\0'`. */
  function ScanWhole(line: seq<char>, start: nat, c: Command): (r: Command)
    requires |line| == BufferSize && 2 <= start <= 3 && CommandValid(c)
    ensures CommandValid(r) && r.what == c.what
    ensures WholeArgument(line, start, c, r)
  {
    var (e, f) := CopyWord(line, start, 0, c.first, false);
    c.(first := f[e - start := Nul], second := c.second[0 := Nul])
  }

  /** The loop of the x, cp and nf cases, which switches to txt[1] at the first space. */
  function ScanSplit(line: seq<char>, start: nat, c: Command): (r: Command)
    requires |line| == BufferSize && 2 <= start <= 3 && CommandValid(c)
    ensures CommandValid(r) && r.what == c.what
    ensures SplitArguments(line, start, c, r)
  {
    var (e, f) := CopyWord(line, start, 0, c.first, true);
    if e < ScanLimit && line[e] == ' ' then
      var (e2, g) := CopyWord(line, e + 2, 1, c.second[0 := line[e + 1]], false);
      assert Written(f[e := Nul], c.first, line, start, e - start, e);
      assert Written(g[e2 - e - 1 := Nul], c.second, line, e + 1, e2 - e - 1, e2 - e - 1);
      c.(first := f[e := Nul], second := g[e2 - e - 1 := Nul])
    else
      assert Written(f[e - start := Nul], c.first, line, start, e - start, e - start);
      c.(first := f[e - start := Nul], second := c.second[0 := Nul])
  }

  /** A command without arguments: txt[0] is untouched and txt[1] is emptied. */
  function NoArguments(c: Command, what: Kind): (r: Command)
    requires CommandValid(c)
    ensures CommandValid(r) && r.what == what
    ensures r.first == c.first && r.second == c.second[0 := Nul]
  {
    c.(what := what, second := c.second[0 := Nul])
  }

  // ---------------------------------------------------------------------
  // Commande::decode
  // ---------------------------------------------------------------------

  /**
   * Commande::decode. The first character selects the command; 'h' needs
   * "elp" after it, 'c' and 'n' need a second letter. Arguments start at
   * index 2 after a one-letter command and at index 3 after a two-letter
   * one.
   */
  function Decode(line: seq<char>, c: Command): (r: Command)
    requires |line| == BufferSize && CommandValid(c)
    ensures CommandValid(r)
    ensures r.what == Exec <==> line[0] == 'x'
    ensures r.what == Help <==> line[..4] == "help"
    ensures r.what == Cp <==> line[..2] == "cp"
    ensures r.what == Cd <==> line[..2] == "cd"
    ensures r.what == Print <==> line[0] == 'p'
    ensures r.what == Remove <==> line[0] == 'r'
    ensures r.what == Ls <==> line[0] == 'l'
    ensures r.what == D <==> line[0] == 'd'
    ensures r.what == Test <==> line[0] == 't'
    ensures r.what == NewDir <==> line[..2] == "nd"
    ensures r.what == NewFile <==> line[..2] == "nf"
    ensures r.what == Unknown <==>
      || line[0] !in "xhcprldtn"
      || (line[0] == 'h' && line[..4] != "help")
      || (line[0] == 'c' && line[1] !in "pd")
      || (line[0] == 'n' && line[1] !in "df")
    ensures r.what == Exec ==> SplitArguments(line, 2, c, r)
    ensures r.what in {Cp, NewFile} ==> SplitArguments(line, 3, c, r)
    ensures r.what == Remove ==> WholeArgument(line, 2, c, r)
    ensures r.what in {Cd, NewDir} ==> WholeArgument(line, 3, c, r)
    ensures r.what in {Unknown, Help, Print, Ls, D, Test} ==>
      r.first == c.first && r.second == c.second[0 := Nul]
  {
    assert line[..4] == "help" <==> line[0] == 'h' && line[1] == 'e' && line[2] == 'l' && line[3] == 'p' by {
      if line[0] == 'h' && line[1] == 'e' && line[2] == 'l' && line[3] == 'p' {
        assert line[..4] == "help";
      }
    }
    assert forall x, y :: line[..2] == [x, y] <==> line[0] == x && line[1] == y by {
      forall x, y | line[0] == x && line[1] == y ensures line[..2] == [x, y] { }
    }
    match line[0]
    case 'x' => ScanSplit(line, 2, c.(what := Exec))
    case 'h' => NoArguments(c, if line[1] == 'e' && line[2] == 'l' && line[3] == 'p' then Help else Unknown)
    case 'c' =>
      if line[1] == 'p' then ScanSplit(line, 3, c.(what := Cp))
      else if line[1] == 'd' then ScanWhole(line, 3, c.(what := Cd))
      else NoArguments(c, Unknown)
    case 'p' => NoArguments(c, Print)
    case 'r' => ScanWhole(line, 2, c.(what := Remove))
    case 'l' => NoArguments(c, Ls)
    case 'd' => NoArguments(c, D)
    case 't' => NoArguments(c, Test)
    case 'n' =>
      if line[1] == 'd' then ScanWhole(line, 3, c.(what := NewDir))
      else if line[1] == 'f' then ScanSplit(line, 3, c.(what := NewFile))
      else NoArguments(c, Unknown)
    case _ => NoArguments(c, Unknown)
  }

  /**
   * A whole argument read back as a C string is the rest of the line from
   * `start`, cut at ScanLimit.
   */
  lemma WholeArgumentIsRestOfLine(line: seq<char>, start: nat, c: Command, r: Command)
    requires |line| == BufferSize && start <= BufferSize && CommandValid(c)
    requires WholeArgument(line, start, c, r)
    ensures Nul in r.first
    ensures CString(r.first) == line[start..Stop(line, start, false)]
  {
    var e := Stop(line, start, false);
    assert r.first[e - start] == Nul;
    CStringAt(r.first, e - start);
    assert r.first[..e - start] == line[start..e];
  }

  /**
   * With a split at the space found at index e, txt[0] read back as a C
   * string is the word before the space followed by the characters the
   * previous command left between the word's length and e, unless one of
   * those is '\0'.
   */
  lemma SplitFirstRead(line: seq<char>, start: nat, c: Command, r: Command)
    requires |line| == BufferSize && start <= BufferSize && CommandValid(c)
    requires SplitArguments(line, start, c, r)
    requires Stop(line, start, true) < ScanLimit && line[Stop(line, start, true)] == ' '
    ensures Nul in r.first
    ensures var e := Stop(line, start, true);
      Nul !in c.first[e - start..e] ==> CString(r.first) == line[start..e] + c.first[e - start..e]
  {
    var e := Stop(line, start, true);
    assert Written(r.first, c.first, line, start, e - start, e);
    assert r.first[e] == Nul;
    if Nul !in c.first[e - start..e] {
      forall k | 0 <= k < e ensures r.first[k] != Nul {
        if k >= e - start {
          assert c.first[e - start..e][k - (e - start)] == c.first[k];
        }
      }
      CStringAt(r.first, e);
      assert r.first[..e] == line[start..e] + c.first[e - start..e];
    }
  }

  /**
   * With a split at the space found at index e, txt[1] read back as a C
   * string is the line after the space, cut at the next '\0' or at
   * ScanLimit; it is empty when the space ends the line.
   */
  lemma SplitSecondRead(line: seq<char>, start: nat, c: Command, r: Command)
    requires |line| == BufferSize && start <= BufferSize && CommandValid(c)
    requires SplitArguments(line, start, c, r)
    requires Stop(line, start, true) < ScanLimit && line[Stop(line, start, true)] == ' '
    ensures Nul in r.second
    ensures var e := Stop(line, start, true);
      && (line[e + 1] != Nul ==> CString(r.second) == line[e + 1..Stop(line, e + 2, false)])
      && (line[e + 1] == Nul ==> CString(r.second) == [])
  {
    var e := Stop(line, start, true);
    var e2 := Stop(line, e + 2, false);
    assert Written(r.second, c.second, line, e + 1, e2 - e - 1, e2 - e - 1);
    assert r.second[e2 - e - 1] == Nul;
    if line[e + 1] != Nul {
      CStringAt(r.second, e2 - e - 1);
      assert r.second[..e2 - e - 1] == line[e + 1..e2];
    } else {
      assert r.second[0] == Nul;
      CStringAt(r.second, 0);
    }
  }

  // ---------------------------------------------------------------------
  // finished
  // ---------------------------------------------------------------------

  /** finished(in): the line starts with "exit" or "halt", whatever follows. */
  function Finished(line: seq<char>): (r: bool)
    requires |line| >= 4
    ensures r <==> line[..4] == "exit" || line[..4] == "halt"
  {
    assert line[..4] == [line[0], line[1], line[2], line[3]];
    (line[0] == 'e' && line[1] == 'x' && line[2] == 'i' && line[3] == 't')
    || (line[0] == 'h' && line[1] == 'a' && line[2] == 'l' && line[3] == 't')
  }

  /**
   * The decoder knows neither "exit" nor "halt": the shell has to test for
   * them before decoding, and a line that ends the shell would decode as
   * an unknown command.
   */
  lemma FinishingLinesAreUnknown(line: seq<char>, c: Command)
    requires |line| == BufferSize && CommandValid(c)
    requires Finished(line)
    ensures Decode(line, c).what == Unknown
  {
    assert line[0] == line[..4][0];
    if line[0] == 'h' {
      assert line[..4] != "help" by {
        assert line[..4][1] == 'a';
      }
    }
  }

  // ---------------------------------------------------------------------
  // The prompt's directory stack
  // ---------------------------------------------------------------------

  /**
   * The directory names in the prompt, as the C strings held in
   * currentDir[0..currentDirSize).
   */
  type DirStack = seq<seq<char>>

  /** The stack the shell starts with. */
  const Home: DirStack := ["home"]

  /** printcd: every name in order, each followed by '/'. */
  function PrintCd(d: DirStack): (out: seq<char>)
    ensures out == [] <==> d == []
    ensures d != [] ==> out[|out| - 1] == '/'
    ensures |out| >= |d|
  {
    if d == [] then [] else PrintCd(d[..|d| - 1]) + d[|d| - 1] + ['/']
  }

  /**
   * The CD case after `moveCd(txt[0])` reported `moved`: ".." pops the
   * last name unless only one is left; any other name is pushed, with no
   * check against the DirSlots buffers; a failed move changes nothing.
   */
  function CdStep(d: DirStack, name: seq<char>, moved: bool): (r: DirStack)
    ensures !moved ==> r == d
    ensures |d| >= 1 ==> |r| >= 1 && r[0] == d[0]
    ensures name == ".." ==> r <= d && |r| >= |d| - 1
    ensures name != ".." ==> moved ==> |r| == |d| + 1 && r[..|d|] == d
  {
    if !moved then d
    else if name == ".." && |d| > 1 then d[..|d| - 1]
    else if name != ".." then d + [name]
    else d
  }

  /** After a successful cd into a name, the prompt shows that name and a '/' after the old one. */
  lemma PromptAfterCd(d: DirStack, name: seq<char>)
    requires name != ".."
    ensures PrintCd(CdStep(d, name, true)) == PrintCd(d) + name + ['/']
  {
    assert CdStep(d, name, true)[..|d|] == d;
  }

  /** cd into a name and then cd ".." come back to the same stack and prompt. */
  lemma CdRoundTrip(d: DirStack, name: seq<char>)
    requires |d| >= 1 && name != ".."
    ensures CdStep(CdStep(d, name, true), "..", true) == d
    ensures PrintCd(CdStep(CdStep(d, name, true), "..", true)) == PrintCd(d)
  {
    assert (d + [name])[..|d|] == d;
  }

  /** One step of a cd history: the decoded name and whether moveCd succeeded. */
  datatype CdCall = CdCall(name: seq<char>, moved: bool)

  function RunCd(d: DirStack, calls: seq<CdCall>): (r: DirStack)
    decreases |calls|
  {
    if calls == [] then d else RunCd(CdStep(d, calls[0].name, calls[0].moved), calls[1..])
  }

  /**
   * Whatever cd commands the user types, the prompt keeps "home" as its
   * first name, and the stack holds at most one name per successful move
   * into a directory other than "..".
   */
  lemma {:induction false} HomeIsNeverPopped(d: DirStack, calls: seq<CdCall>)
    requires |d| >= 1 && d[0] == "home"
    ensures |RunCd(d, calls)| >= 1 && RunCd(d, calls)[0] == "home"
    ensures |RunCd(d, calls)| <= |d| + |calls|
    decreases |calls|
  {
    if calls != [] {
      HomeIsNeverPopped(CdStep(d, calls[0].name, calls[0].moved), calls[1..]);
    }
  }

  /** The initial prompt is "home/". */
  lemma InitialPrompt()
    ensures PrintCd(Home) == "home/"
  {
    assert Home[..0] == [];
  }
}

=== FILE: synch.dfy ===
/**
 * Semaphores, locks and condition variables of the NachOS kernel.
 *
 * The kernel gets atomicity by disabling interrupts on its single CPU, so
 * each operation below is one atomic transition on an explicit record.
 * Blocking is explicit state: a thread that would sleep is appended to a
 * semaphore's wait queue and the operation reports `Sleeps`; when another
 * thread's V moves it back to the ready list it runs the rest of the
 * operation again (the `while` loop of P re-tests the value).
 *
 * The inner `mutex` semaphores of Lock and Condition bracket each operation
 * with a P/V pair. Because a transition is atomic, nobody else can hold the
 * mutex in between, so the pair leaves it as it was: the records keep it
 * idle (`Semaphore(1, [])`) and no operation changes it.
 */
module Synch {
  import opened Opt

  /** A kernel thread's identifier (`Thread::GetThreadID`). */
  type Tid = nat

  /** The `ownerID` of a lock that nobody holds. */
  const NoOwner: int := -1

  /** A semaphore never blocks its caller on a negative value, only on 0. */
  datatype Semaphore = Semaphore(value: int, queue: seq<Tid>)

  /** What a possibly-blocking step did to its caller. */
  datatype Step<S> = Proceeds(state: S) | Sleeps(state: S)

  const IdleMutex: Semaphore := Semaphore(1, [])

  function Min(a: nat, b: nat): nat { if a <= b then a else b }

  function NewSemaphore(initial: int): (s: Semaphore)
    ensures s.value == initial && s.queue == []
  {
    Semaphore(initial, [])
  }

  /**
   * Semaphore::P. The caller takes a unit only after seeing a non-zero
   * value; otherwise it is queued at the tail and sleeps, and re-runs P
   * when woken.
   */
  function P(s: Semaphore, t: Tid): (r: Step<Semaphore>)
    ensures r.Proceeds? <==> s.value != 0
    ensures r.Proceeds? ==> r.state.value == s.value - 1 && r.state.queue == s.queue
    ensures r.Sleeps? ==> r.state.value == 0 && r.state.queue == s.queue + [t]
  {
    if s.value == 0 then Sleeps(s.(queue := s.queue + [t]))
    else Proceeds(s.(value := s.value - 1))
  }

  /** The thread that V moves to the ready list, if any. */
  function Woken(s: Semaphore): Option<Tid>
  {
    if s.queue == [] then None else Some(s.queue[0])
  }

  /**
   * Semaphore::V. The value always goes up by one and the head of the
   * queue, if any, leaves the queue; the unit is not handed to it.
   */
  function V(s: Semaphore): (r: Semaphore)
    ensures r.value == s.value + 1
    ensures Woken(s).None? ==> r.queue == s.queue
    ensures Woken(s).Some? ==> [Woken(s).value] + r.queue == s.queue
  {
    Semaphore(s.value + 1, if s.queue == [] then [] else s.queue[1..])
  }

  /**
   * V does not hand its unit to the thread it wakes: if a third thread
   * calls P first it takes the unit, and the woken thread, re-testing,
   * goes back to sleep at the tail of the queue.
   */
  lemma VDoesNotHandOff(s: Semaphore, other: Tid)
    requires s.value == 0 && s.queue != []
    ensures P(V(s), other).Proceeds?
    ensures var after := P(V(s), other).state;
      P(after, s.queue[0]).Sleeps?
      && P(after, s.queue[0]).state.queue == s.queue[1..] + [s.queue[0]]
  {
  }

  /** One call on a semaphore, as it appears in a run. */
  datatype SemOp = CallP(t: Tid) | CallV

  /** A semaphore after a run, with the number of P and V calls that completed. */
  datatype Tally = Tally(sem: Semaphore, completedP: nat, completedV: nat)

  /** Applies the calls in order; a P that sleeps completes nothing. */
  function Run(s: Semaphore, ops: seq<SemOp>): Tally
    decreases |ops|
  {
    if ops == [] then Tally(s, 0, 0)
    else
      var before := Run(s, ops[..|ops| - 1]);
      match ops[|ops| - 1]
      case CallV => Tally(V(before.sem), before.completedP, before.completedV + 1)
      case CallP(t) =>
        match P(before.sem, t)
        case Proceeds(s') => Tally(s', before.completedP + 1, before.completedV)
        case Sleeps(s') => Tally(s', before.completedP, before.completedV)
  }

  /**
   * Over any run from a non-negative value, the value never goes negative
   * and always equals the initial value plus completed V's minus completed P's.
   */
  lemma {:induction false} RunAccounting(s: Semaphore, ops: seq<SemOp>)
    requires s.value >= 0
    ensures Run(s, ops).sem.value >= 0
    ensures Run(s, ops).sem.value == s.value + Run(s, ops).completedV - Run(s, ops).completedP
    decreases |ops|
  {
    if ops != [] {
      RunAccounting(s, ops[..|ops| - 1]);
    }
  }

  /** A lock: its holder (or NoOwner), an entry semaphore of capacity 1 and an inner mutex. */
  datatype Lock = Lock(ownerId: int, entry: Semaphore, mutex: Semaphore)

  /** The lock invariant: the entry unit is present exactly when nobody holds the lock. */
  predicate LockValid(l: Lock)
  {
    && l.mutex == IdleMutex
    && (l.ownerId == NoOwner ==> l.entry.value == 1)
    && (l.ownerId != NoOwner ==> l.ownerId >= 0 && l.entry.value == 0)
  }

  /** Lock::Lock: nobody holds it, and both semaphores hold 1. */
  function NewLock(): (l: Lock)
    ensures l.ownerId == NoOwner && l.entry == Semaphore(1, []) && l.mutex == Semaphore(1, [])
    ensures LockValid(l)
  {
    Lock(NoOwner, Semaphore(1, []), IdleMutex)
  }

  /** The lock as it stands while thread t holds it and nobody waits for it. */
  function Held(t: Tid): (l: Lock)
    ensures LockValid(l) && l.ownerId == t && l.entry.queue == []
  {
    Lock(t, Semaphore(0, []), IdleMutex)
  }

  /**
   * Lock::Acquire. The caller first takes the entry semaphore (and may
   * sleep there); on a valid lock it then becomes the owner. The branch
   * that finds an owner already set gives the unit back and returns
   * without the lock; it cannot be reached on a valid lock.
   */
  function Acquire(l: Lock, t: Tid): (r: Step<Lock>)
    ensures r.Sleeps? ==> r.state.ownerId == l.ownerId && r.state.entry.queue == l.entry.queue + [t]
    ensures LockValid(l) ==> LockValid(r.state)
    ensures LockValid(l) ==> (r.Proceeds? <==> l.ownerId == NoOwner)
    ensures LockValid(l) && r.Proceeds? ==>
      r.state.ownerId == t && r.state.entry.value == 0 && r.state.entry.queue == l.entry.queue
  {
    match P(l.entry, t)
    case Sleeps(e) => Sleeps(l.(entry := e))
    case Proceeds(e) =>
      if l.ownerId == NoOwner then Proceeds(l.(ownerId := t, entry := e))
      else Proceeds(l.(entry := V(e)))
  }

  /**
   * Lock::Release. Only the owner's release does anything: it clears the
   * owner and V's the entry semaphore. Anyone else's is a silent no-op.
   */
  function Release(l: Lock, t: Tid): (r: Lock)
    ensures l.ownerId != t ==> r == l
    ensures l.ownerId == t ==> r.ownerId == NoOwner && r.entry == V(l.entry) && r.mutex == l.mutex
    ensures LockValid(l) ==> LockValid(r)
    ensures LockValid(l) && l.ownerId == t ==> r.entry.value == 1
  {
    if l.ownerId == t then l.(ownerId := NoOwner, entry := V(l.entry)) else l
  }

  /** While one thread holds a valid lock, every other acquirer sleeps and ownership stays put. */
  lemma MutualExclusion(l: Lock, other: Tid)
    requires LockValid(l) && l.ownerId != NoOwner
    ensures Acquire(l, other).Sleeps?
    ensures Acquire(l, other).state.ownerId == l.ownerId
  {
  }

  /** Taking and then releasing a lock nobody holds or waits for leaves it as it was. */
  lemma AcquireReleaseIdle(t: Tid)
    ensures Acquire(NewLock(), t) == Proceeds(Held(t))
    ensures Release(Held(t), t) == NewLock()
  {
  }

  /** One call on a lock, as it appears in a run. */
  datatype LockOp = CallAcquire(t: Tid) | CallRelease(t: Tid)

  /** Applies the calls in order; an Acquire that sleeps leaves its caller queued. */
  function RunLock(l: Lock, ops: seq<LockOp>): Lock
    decreases |ops|
  {
    if ops == [] then l
    else
      var before := RunLock(l, ops[..|ops| - 1]);
      match ops[|ops| - 1]
      case CallAcquire(t) => Acquire(before, t).state
      case CallRelease(t) => Release(before, t)
  }

  /**
   * Over any run from a new lock, at most one thread holds the lock at a
   * time: the entry unit is present exactly when the owner is unset.
   */
  lemma {:induction false} RunLockValid(ops: seq<LockOp>)
    ensures LockValid(RunLock(NewLock(), ops))
    decreases |ops|
  {
    if ops != [] {
      RunLockValid(ops[..|ops| - 1]);
    }
  }

  /** A condition variable: the count of waiters not yet signalled, a sleep semaphore and an inner mutex. */
  datatype Condition = Condition(waiting: nat, sleep: Semaphore, mutex: Semaphore)

  predicate CondValid(c: Condition)
  {
    c.sleep.value >= 0 && c.mutex == IdleMutex
  }

  /** Condition::Condition: no waiters and a sleep semaphore at 0. */
  function NewCondition(): (c: Condition)
    ensures c.waiting == 0 && c.sleep == Semaphore(0, []) && c.mutex == Semaphore(1, [])
    ensures CondValid(c)
  {
    Condition(0, Semaphore(0, []), IdleMutex)
  }

  /** Where a thread stands after a condition operation. */
  datatype Phase = Returned | AsleepOnCondition | AsleepOnLock

  /** A condition, the lock used with it, and where the caller stands. */
  datatype Monitor = Monitor(cond: Condition, lock: Lock, phase: Phase)

  /**
   * The second half of Condition::Wait, also what a waiter runs again once
   * woken: P on the sleep semaphore, then take the caller's lock back.
   */
  function Resume(c: Condition, l: Lock, t: Tid): (r: Monitor)
    ensures r.cond.waiting == c.waiting && r.cond.mutex == c.mutex
    ensures r.phase == AsleepOnCondition <==> c.sleep.value == 0
    ensures r.phase == AsleepOnCondition ==>
      r.cond.sleep == Semaphore(0, c.sleep.queue + [t]) && r.lock == l
    ensures r.phase != AsleepOnCondition ==>
      r.cond.sleep == Semaphore(c.sleep.value - 1, c.sleep.queue)
    ensures LockValid(l) ==> LockValid(r.lock)
    ensures LockValid(l) && l.ownerId == NoOwner && r.phase != AsleepOnCondition ==>
      r.phase == Returned && r.lock.ownerId == t && r.lock.entry.queue == l.entry.queue
  {
    match P(c.sleep, t)
    case Sleeps(s) => Monitor(c.(sleep := s), l, AsleepOnCondition)
    case Proceeds(s) =>
      match Acquire(l, t)
      case Sleeps(l') => Monitor(c.(sleep := s), l', AsleepOnLock)
      case Proceeds(l') => Monitor(c.(sleep := s), l', Returned)
  }

  /**
   * Condition::Wait. The caller is counted as a waiter, releases its lock
   * before sleeping, and holds the lock again when it returns.
   */
  function Wait(c: Condition, l: Lock, t: Tid): (r: Monitor)
    ensures r.cond.waiting == c.waiting + 1 && r.cond.mutex == c.mutex
    ensures r.phase == AsleepOnCondition <==> c.sleep.value == 0
    ensures r.phase == AsleepOnCondition ==> r.cond.sleep == Semaphore(0, c.sleep.queue + [t])
    ensures r.phase != AsleepOnCondition ==> r.cond.sleep == Semaphore(c.sleep.value - 1, c.sleep.queue)
    ensures LockValid(l) && l.ownerId == t ==>
      && LockValid(r.lock)
      && r.phase != AsleepOnLock
      && (r.phase == AsleepOnCondition ==> r.lock.ownerId == NoOwner)
      && (r.phase == Returned ==> r.lock.ownerId == t)
  {
    Resume(c.(waiting := c.waiting + 1), Release(l, t), t)
  }

  /**
   * Condition::Signal. With no waiter it does nothing, so the wake is not
   * remembered. Otherwise it V's the sleep semaphore and uncounts one
   * waiter, releasing the caller's lock around the wake and taking it back.
   */
  function Signal(c: Condition, l: Lock, t: Tid): (r: Monitor)
    ensures c.waiting == 0 ==> r == Monitor(c, l, Returned)
    ensures c.waiting > 0 ==>
      r.cond.waiting == c.waiting - 1 && r.cond.sleep == V(c.sleep) && r.cond.mutex == c.mutex
    ensures c.waiting > 0 && LockValid(l) && l.ownerId == t ==>
      && r.phase == Returned
      && LockValid(r.lock) && r.lock.ownerId == t
      && r.lock.entry.queue == V(l.entry).queue
  {
    if c.waiting == 0 then Monitor(c, l, Returned)
    else
      var c' := c.(sleep := V(c.sleep), waiting := c.waiting - 1);
      match Acquire(Release(l, t), t)
      case Proceeds(l') => Monitor(c', l', Returned)
      case Sleeps(l') => Monitor(c', l', AsleepOnLock)
  }

  /** A wake with nobody counted is lost: a later waiter still sleeps. */
  lemma SignalNotRemembered(c: Condition, l: Lock, t: Tid, u: Tid)
    requires c.waiting == 0 && c.sleep.value == 0
    ensures Wait(Signal(c, l, t).cond, l, u).phase == AsleepOnCondition
  {
  }

  /**
   * Condition::Broadcast, by a caller holding the lock: exactly `waiting`
   * V's on the sleep semaphore, which wake the threads at the head of its
   * queue, and no waiter left counted. Each round also releases and
   * re-takes the lock, which wakes the head of the lock's own queue.
   */
  function Broadcast(c: Condition, l: Lock, t: Tid): (r: Monitor)
    requires LockValid(l) && l.ownerId == t
    ensures r.phase == Returned && r.cond.waiting == 0 && r.cond.mutex == c.mutex
    ensures r.cond.sleep.value == c.sleep.value + c.waiting
    ensures LockValid(r.lock) && r.lock.ownerId == t
    ensures l == Held(t) ==> r.lock == Held(t)
    decreases c.waiting
  {
    if c.waiting == 0 then Monitor(c, l, Returned)
    else
      AcquireReleaseIdle(t);
      var m := Signal(c, l, t);
      Broadcast(m.cond, m.lock, t)
  }

  /**
   * Broadcast wakes, in order, the first `waiting` sleepers of the
   * condition's queue, and each of its release-and-retake rounds wakes the
   * head of the lock's queue.
   */
  lemma {:induction false} BroadcastWakesFirst(c: Condition, l: Lock, t: Tid)
    requires LockValid(l) && l.ownerId == t
    ensures Broadcast(c, l, t).cond.sleep.queue == c.sleep.queue[Min(c.waiting, |c.sleep.queue|)..]
    ensures Broadcast(c, l, t).lock.entry.queue == l.entry.queue[Min(c.waiting, |l.entry.queue|)..]
    decreases c.waiting
  {
    if c.waiting > 0 {
      var m := Signal(c, l, t);
      BroadcastWakesFirst(m.cond, m.lock, t);
      DropAfterWake(c.sleep, c.waiting);
      DropAfterWake(l.entry, c.waiting);
    }
  }

  /** Waking one thread and then `w - 1` more wakes the first `w` of the queue. */
  lemma DropAfterWake(s: Semaphore, w: nat)
    requires w > 0
    ensures V(s).queue[Min(w - 1, |V(s).queue|)..] == s.queue[Min(w, |s.queue|)..]
  {
    if s.queue != [] {
      assert V(s).queue == s.queue[1..];
    }
  }

  /**
   * The loop `while (guard) cond->Wait(lock);` followed by the release of
   * the lock, run by a holder of the lock in one atomic transition. The
   * guard cannot change while nobody else runs, so with the guard false the
   * caller just releases the lock; with it true, Wait falls through as long
   * as the sleep semaphore has spare units, and the caller ends asleep with
   * its lock released.
   */
  function WaitWhile(c: Condition, l: Lock, t: Tid, guard: bool): (r: Monitor)
    requires LockValid(l) && l.ownerId == t && CondValid(c)
    ensures !guard ==> r == Monitor(c, Release(l, t), Returned)
    ensures guard ==>
      && r.phase == AsleepOnCondition
      && LockValid(r.lock) && r.lock.ownerId == NoOwner
      && r.cond.waiting == c.waiting + c.sleep.value + 1
      && r.cond.sleep == Semaphore(0, c.sleep.queue + [t])
      && CondValid(r.cond)
    ensures l == Held(t) ==> r.lock == NewLock()
    decreases c.sleep.value
  {
    if !guard then Monitor(c, Release(l, t), Returned)
    else
      var m := Wait(c, l, t);
      if m.phase == AsleepOnCondition then m
      else WaitWhile(m.cond, m.lock, t, guard)
  }

  /**
   * What a waiter woken from the sleep queue does: finish Wait (re-test the
   * sleep semaphore, take the lock), then re-test the guard as the loop does.
   */
  function ResumeWhile(c: Condition, l: Lock, t: Tid, guard: bool): (r: Monitor)
    requires LockValid(l) && l.ownerId == NoOwner && CondValid(c)
    ensures c.sleep.value == 0 ==>
      r.phase == AsleepOnCondition && r.cond.waiting == c.waiting
      && r.cond.sleep.queue == c.sleep.queue + [t] && r.lock == l
    ensures c.sleep.value > 0 && !guard ==>
      && r.phase == Returned
      && LockValid(r.lock) && r.lock.ownerId == NoOwner
      && r.cond.waiting == c.waiting && r.cond.sleep.value == c.sleep.value - 1
    ensures c.sleep.value > 0 && guard ==>
      && r.phase == AsleepOnCondition
      && r.cond.waiting == c.waiting + c.sleep.value
      && r.cond.sleep.value == 0
    ensures LockValid(r.lock) && CondValid(r.cond)
    ensures l == NewLock() ==> r.lock == NewLock()
  {
    var m := Resume(c, l, t);
    if m.phase == Returned then WaitWhile(m.cond, m.lock, t, guard) else m
  }
}

=== FILE: userprocess.dfy ===
/**
 * The user-process system calls: create a process from a program, exit
 * the calling process, and wait for another process. The kernel state they
 * touch is the process table, the frame provider (with main memory and the
 * rand cursor) and the caller's address space.
 */
module UserProcesses {
  import opened Opt
  import opened Machine
  import opened Synch
  import opened Frames
  import opened Kernel
  import opened AddrSpaces

  /** `numProcess++` on an unsigned 32-bit counter. */
  function Inc32(n: nat): (r: nat)
    requires n < Word
    ensures r < Word
    ensures n + 1 < Word ==> r == n + 1
    ensures n + 1 == Word ==> r == 0
  {
    (n + 1) % Word
  }

  /** `--numProcess` on an unsigned 32-bit counter: 0 wraps to the largest value. */
  function Dec32(n: nat): (r: nat)
    requires n < Word
    ensures r < Word
    ensures n > 0 ==> r == n - 1
    ensures n == 0 ==> r == Word - 1
  {
    (n + Word - 1) % Word
  }

  // ---------------------------------------------------------------------
  // Create
  // ---------------------------------------------------------------------

  /** What do_UserProcessCreate did. */
  datatype ProcessCreation =
    | CreateFailed   // -1
    | ProcessCreated(pid: Option<nat>, space: Space, table: ProcessTable,
                     provider: FrameProvider, mem: seq<Byte>, cursor: nat)

  /**
   * do_UserProcessCreate, for a program file that opens to a program with
   * the given segment sizes, or that does not open (None). When the file
   * does not open or the address space is not created it returns -1 and
   * nothing changes. Otherwise numProcess goes up by one and the call
   * returns the new space's process id, which is unassigned when the
   * process table was full.
   */
  function ProcessCreate(file: Option<NoffSizes>, fp: FrameProvider, mem: seq<Byte>, rand: nat -> nat,
                         cursor: nat, pt: ProcessTable): (r: ProcessCreation)
    requires UserThreadMax >= 1
    requires ProcessTableValid(pt)
    requires |mem| >= NumFrames(fp) * PageSize
    requires file.Some? ==> NumPagesFor(file.value) <= NumFrames(fp)
    ensures r.CreateFailed? <==> file.None? || NumAvailFrame(fp) < NumPagesFor(file.value)
    ensures r.ProcessCreated? ==>
      var c := NewAddrSpace(file.value, fp, mem, rand, cursor, pt);
      && c.Created?
      && r.space == c.space && r.provider == c.provider && r.mem == c.mem && r.cursor == c.cursor
      && r.pid == r.space.processId == ClaimSlot(pt).pid
      && r.table == ClaimSlot(pt).table.(numProcess := Inc32(pt.numProcess))
      && SpaceValid(r.space)
      && ProcessTableValid(r.table)
  {
    match file
    case None => CreateFailed
    case Some(h) =>
      match NewAddrSpace(h, fp, mem, rand, cursor, pt)
      case NotCreated => CreateFailed
      case Created(space, provider, mem', cursor', table) =>
        ProcessCreated(space.processId, space, table.(numProcess := Inc32(table.numProcess)),
                       provider, mem', cursor')
  }

  // ---------------------------------------------------------------------
  // Exit
  // ---------------------------------------------------------------------

  /**
   * Taking an idle process lock, broadcasting its condition and releasing
   * the lock: every counted waiter is woken and the lock is idle again.
   */
  function BroadcastUnderLock(l: Lock, c: Condition, caller: Tid): (m: Monitor)
    requires l == NewLock() && CondValid(c)
    ensures m.lock == NewLock() && CondValid(m.cond)
    ensures m.cond.waiting == 0 && m.cond.sleep.value == c.sleep.value + c.waiting
  {
    AcquireReleaseIdle(caller);
    var held := Acquire(l, caller).state;
    var b := Broadcast(c, held, caller);
    b.(lock := Release(b.lock, caller))
  }

  /**
   * cleanUpOnExit(ID): under the slot's lock, the slot is marked exited
   * and its condition is broadcast, leaving no waiter counted.
   */
  function CleanUpOnExit(pt: ProcessTable, pid: nat, caller: Tid): (r: ProcessTable)
    requires ProcessTableValid(pt) && pid < MaxProcesses
    ensures ProcessTableValid(r)
    ensures r.slots == pt.slots[pid := 0]
    ensures r.conds[pid].waiting == 0
    ensures r.conds[pid].sleep.value == pt.conds[pid].sleep.value + pt.conds[pid].waiting
    ensures r.conds == pt.conds[pid := r.conds[pid]]
    ensures r.locks == pt.locks && r.numProcess == pt.numProcess
  {
    var m := BroadcastUnderLock(pt.locks[pid], pt.conds[pid], caller);
    assert pt.locks[pid := m.lock] == pt.locks;
    pt.(slots := pt.slots[pid := 0], conds := pt.conds[pid := m.cond])
  }

  /** What do_UserProcessExit did. */
  datatype Exiting =
    | WaitsForChildren(space: Space)                        // asleep on the exit condition
    | Halted(table: ProcessTable)                           // the last process: the machine halts
    | ProcessExited(table: ProcessTable, provider: FrameProvider)

  /** Every valid page of the space maps to a frame of the provider. */
  predicate FramesInRange(s: Space, fp: FrameProvider)
  {
    forall k :: 0 <= k < |s.pageTable| && s.pageTable[k].valid ==> 0 <= s.pageTable[k].physicalPage < NumFrames(fp)
  }

  /**
   * The part of do_UserProcessExit after the children are gone: numProcess
   * goes down by one; at 0 the machine halts and the slot is left alone;
   * otherwise the slot is cleaned up and the space is deleted, which
   * releases its frames. The slot index is the space's process id.
   */
  function FinishExit(s: Space, pt: ProcessTable, fp: FrameProvider, caller: Tid): (r: Exiting)
    requires ProcessTableValid(pt)
    requires FramesInRange(s, fp)
    requires Dec32(pt.numProcess) != 0 ==> s.processId.Some? && s.processId.value < MaxProcesses
    ensures !r.WaitsForChildren?
    ensures r.Halted? <==> Dec32(pt.numProcess) == 0
    ensures r.Halted? ==> r.table == pt.(numProcess := 0)
    ensures r.ProcessExited? ==>
      && r.table == CleanUpOnExit(pt.(numProcess := Dec32(pt.numProcess)), s.processId.value, caller)
      && r.table.slots[s.processId.value] == 0
      && r.table.numProcess == Dec32(pt.numProcess)
      && r.provider == FreeFrames(fp, s.pageTable)
      && ProcessTableValid(r.table)
  {
    var n := Dec32(pt.numProcess);
    if n == 0 then Halted(pt.(numProcess := 0))
    else
      var table := CleanUpOnExit(pt.(numProcess := n), s.processId.value, caller);
      ProcessExited(table, FreeFrames(fp, s.pageTable))
  }

  /**
   * do_UserProcessExit. waitForChildrenToExit first: under the table lock
   * the caller waits on the exit condition while the space has more than
   * one live thread, which puts it to sleep with the lock released.
   * Otherwise it goes on to FinishExit.
   */
  function ProcessExit(s: Space, pt: ProcessTable, fp: FrameProvider, caller: Tid): (r: Exiting)
    requires SpaceValid(s) && ProcessTableValid(pt)
    requires FramesInRange(s, fp)
    requires Dec32(pt.numProcess) != 0 ==> s.processId.Some? && s.processId.value < MaxProcesses
    ensures r.WaitsForChildren? <==> |s.threads| > 1
    ensures r.WaitsForChildren? ==>
      && SpaceValid(r.space)
      && r.space == s.(exitCond := r.space.exitCond)
      && r.space.exitCond.sleep.queue == s.exitCond.sleep.queue + [caller]
      && r.space.exitCond.waiting == s.exitCond.waiting + s.exitCond.sleep.value + 1
    ensures !r.WaitsForChildren? ==> r == FinishExit(s, pt, fp, caller)
  {
    AcquireReleaseIdle(caller);
    var m := WaitWhile(s.exitCond, Held(caller), caller, |s.threads| > 1);
    if m.phase == AsleepOnCondition then WaitsForChildren(s.(exitCond := m.cond, tableLock := m.lock))
    else FinishExit(s, pt, fp, caller)
  }

  /**
   * What an exiting process woken on its exit condition runs: the rest of
   * Wait and the loop test; with at most one live thread left it finishes
   * the exit, otherwise it sleeps again.
   */
  function ProcessExitResume(s: Space, pt: ProcessTable, fp: FrameProvider, caller: Tid): (r: Exiting)
    requires SpaceValid(s) && ProcessTableValid(pt)
    requires FramesInRange(s, fp)
    requires Dec32(pt.numProcess) != 0 ==> s.processId.Some? && s.processId.value < MaxProcesses
    ensures !r.WaitsForChildren? <==> s.exitCond.sleep.value > 0 && |s.threads| <= 1
    ensures r.WaitsForChildren? ==> SpaceValid(r.space) && r.space == s.(exitCond := r.space.exitCond)
    ensures !r.WaitsForChildren? ==> r == FinishExit(s, pt, fp, caller)
  {
    var m := ResumeWhile(s.exitCond, s.tableLock, caller, |s.threads| > 1);
    if m.phase == Returned then FinishExit(s, pt, fp, caller)
    else WaitsForChildren(s.(exitCond := m.cond, tableLock := m.lock))
  }

  // ---------------------------------------------------------------------
  // Wait
  // ---------------------------------------------------------------------

  /** What do_WaitProcess did. */
  datatype Waiting = WaitReturns(table: ProcessTable) | WaitSleeps(table: ProcessTable)

  predicate IsSelf(self: Option<nat>, pid: int)
  {
    self.Some? && self.value == pid
  }

  /**
   * do_WaitProcess(pid), by a thread of the process `self`. Waiting for
   * oneself returns at once. Otherwise, under the slot's lock, the caller
   * waits on the slot's condition while the slot is non-zero: it returns
   * at once if the process has exited, and sleeps otherwise. The slot is
   * indexed without a range check, so pid must be a slot.
   */
  function WaitProcess(pt: ProcessTable, self: Option<nat>, caller: Tid, pid: int): (r: Waiting)
    requires ProcessTableValid(pt)
    requires !IsSelf(self, pid) ==> 0 <= pid < MaxProcesses
    ensures ProcessTableValid(r.table)
    ensures IsSelf(self, pid) ==> r == WaitReturns(pt)
    ensures !IsSelf(self, pid) ==> (r.WaitReturns? <==> pt.slots[pid] == 0)
    ensures r.WaitReturns? ==> r.table == pt
    ensures r.WaitSleeps? ==>
      && r.table == pt.(conds := pt.conds[pid := r.table.conds[pid]])
      && r.table.conds[pid].sleep.queue == pt.conds[pid].sleep.queue + [caller]
      && r.table.conds[pid].waiting == pt.conds[pid].waiting + pt.conds[pid].sleep.value + 1
  {
    if IsSelf(self, pid) then WaitReturns(pt)
    else
      AcquireReleaseIdle(caller);
      var m := WaitWhile(pt.conds[pid], Held(caller), caller, pt.slots[pid] != 0);
      if m.phase == AsleepOnCondition then
        WaitSleeps(pt.(conds := pt.conds[pid := m.cond], locks := pt.locks[pid := m.lock]))
      else WaitReturns(pt)
  }

  /**
   * What a waiter woken on the slot's condition runs: the rest of Wait and
   * the loop test. It returns only once the slot is 0.
   */
  function WaitProcessResume(pt: ProcessTable, caller: Tid, pid: nat): (r: Waiting)
    requires ProcessTableValid(pt) && pid < MaxProcesses
    ensures ProcessTableValid(r.table)
    ensures r.WaitReturns? ==> pt.slots[pid] == 0
    ensures r.WaitReturns? <==> pt.conds[pid].sleep.value > 0 && pt.slots[pid] == 0
    ensures r.table == pt.(conds := pt.conds[pid := r.table.conds[pid]])
  {
    var m := ResumeWhile(pt.conds[pid], pt.locks[pid], caller, pt.slots[pid] != 0);
    var table := pt.(conds := pt.conds[pid := m.cond], locks := pt.locks[pid := m.lock]);
    if m.phase == Returned then WaitReturns(table) else WaitSleeps(table)
  }

  /**
   * When a process that others are waiting for exits without halting the
   * machine, a waiter counted on its slot is woken and its resumption
   * returns.
   */
  lemma ExitReleasesWaiters(s: Space, pt: ProcessTable, fp: FrameProvider, caller: Tid, waiter: Tid)
    requires SpaceValid(s) && ProcessTableValid(pt)
    requires FramesInRange(s, fp)
    requires s.processId.Some? && s.processId.value < MaxProcesses
    requires |s.threads| <= 1 && Dec32(pt.numProcess) != 0
    requires pt.conds[s.processId.value].waiting > 0
    ensures ProcessExit(s, pt, fp, caller).ProcessExited?
    ensures WaitProcessResume(ProcessExit(s, pt, fp, caller).table, waiter, s.processId.value).WaitReturns?
  {
  }

  /** A process that has exited is never waited for: WaitProcess on its slot returns at once. */
  lemma WaitAfterExitReturns(s: Space, pt: ProcessTable, fp: FrameProvider, caller: Tid, self: Option<nat>, waiter: Tid)
    requires SpaceValid(s) && ProcessTableValid(pt)
    requires FramesInRange(s, fp)
    requires s.processId.Some? && s.processId.value < MaxProcesses
    requires |s.threads| <= 1 && Dec32(pt.numProcess) != 0
    ensures var table := ProcessExit(s, pt, fp, caller).table;
      WaitProcess(table, self, waiter, s.processId.value) == WaitReturns(table)
  {
  }

  /**
   * A process just created is one others can wait for: its slot is claimed,
   * so a WaitProcess on the returned pid by any other process sleeps on that
   * slot's condition until the new process's exit clears the slot.
   */
  lemma CreatedProcessIsWaitedFor(file: Option<NoffSizes>, fp: FrameProvider, mem: seq<Byte>, rand: nat -> nat,
                                  cursor: nat, pt: ProcessTable, self: Option<nat>, waiter: Tid)
    requires UserThreadMax >= 1 && ProcessTableValid(pt)
    requires |mem| >= NumFrames(fp) * PageSize
    requires file.Some? ==> NumPagesFor(file.value) <= NumFrames(fp)
    requires ProcessCreate(file, fp, mem, rand, cursor, pt).ProcessCreated?
    requires ProcessCreate(file, fp, mem, rand, cursor, pt).pid.Some?
    requires !IsSelf(self, ProcessCreate(file, fp, mem, rand, cursor, pt).pid.value)
    ensures var r := ProcessCreate(file, fp, mem, rand, cursor, pt);
      && r.table.slots[r.pid.value] == 1
      && WaitProcess(r.table, self, waiter, r.pid.value).WaitSleeps?
  {
    var r := ProcessCreate(file, fp, mem, rand, cursor, pt);
    assert r.table.slots == ClaimSlot(pt).table.slots;
  }
}

=== FILE: userthread.dfy ===
/**
 * The user-thread system calls: create, exit and join. Each call is one
 * atomic transition on the caller's address space; a call that has to
 * sleep reports so, and the part it runs once woken is a separate
 * transition (CreateStack, ExitStack, JoinResume).
 */
module UserThreads {
  import opened Synch
  import opened BitMaps
  import opened AddrSpaces

  // ---------------------------------------------------------------------
  // Registers of a new thread
  // ---------------------------------------------------------------------

  /** The registers StartUserThread writes by name; every other register is numbered. */
  datatype Reg = ArgReg | PCReg | NextPCReg | RetAddrReg | StackReg | OtherReg(n: nat)

  type Registers = Reg -> int

  /** The function, argument and return address a user thread is created with. */
  datatype ThreadParams = ThreadParams(threadFunction: int, functionArgs: int, returnFunction: int)

  /**
   * AddrSpace::InitRegisters: every register 0, except the next PC (4)
   * and the stack register (16 bytes below the top of the space).
   */
  function InitRegisters(s: Space): (regs: Registers)
    ensures regs(PCReg) == 0 && regs(NextPCReg) == 4 && regs(StackReg) == StackTop(s) - 16
    ensures regs(ArgReg) == 0 && regs(RetAddrReg) == 0
    ensures forall n :: regs(OtherReg(n)) == 0
  {
    (r: Reg) => match r
      case NextPCReg => 4
      case StackReg => StackTop(s) - 16
      case _ => 0
  }

  /**
   * StartUserThread: after InitRegisters, the thread's argument goes to
   * register 4, it starts at its function, returns to its return function,
   * and runs on its own stack.
   */
  function StartRegisters(s: Space, p: ThreadParams, sp: int): (regs: Registers)
    ensures regs(ArgReg) == p.functionArgs
    ensures regs(PCReg) == p.threadFunction && regs(NextPCReg) == p.threadFunction + 4
    ensures regs(RetAddrReg) == p.returnFunction
    ensures regs(StackReg) == sp
    ensures forall n :: regs(OtherReg(n)) == InitRegisters(s)(OtherReg(n)) == 0
  {
    var init := InitRegisters(s);
    (r: Reg) => match r
      case ArgReg => p.functionArgs
      case PCReg => p.threadFunction
      case NextPCReg => p.threadFunction + 4
      case RetAddrReg => p.returnFunction
      case StackReg => sp
      case OtherReg(n) => init(r)
  }

  // ---------------------------------------------------------------------
  // Create
  // ---------------------------------------------------------------------

  /** What do_UserThreadCreate did. */
  datatype Creation =
    | Rejected(space: Space)                  // -1: the thread table is full
    | NoStack(tid: Tid, space: Space)         // -1: no stack slot free
    | StackBusy(tid: Tid, space: Space)       // the caller sleeps on the stack lock
    | Started(tid: Tid, sp: int, space: Space) // returns tid; the new thread runs on sp

  /** The value do_UserThreadCreate returns, once it returns. */
  function CreateResult(c: Creation): int
    requires !c.StackBusy?
  {
    match c
    case Rejected(_) => -1
    case NoStack(_, _) => -1
    case Started(tid, _, _) => tid
  }

  /**
   * The stack half of do_UserThreadCreate, also what the caller runs again
   * when woken on the stack lock: take the stack lock, claim a slot, give
   * the lock back. When no slot is free the call returns -1 with the
   * stack lock still held and the id still registered.
   */
  function CreateStack(s: Space, caller: Tid, tid: Tid): (r: Creation)
    requires SpaceValid(s)
    ensures !r.Rejected? && r.tid == tid && SpaceValid(r.space)
    ensures r.StackBusy? <==> s.stackLock.ownerId != NoOwner
    ensures r.StackBusy? ==>
      && r.space == s.(stackLock := r.space.stackLock)
      && r.space.stackLock.ownerId == s.stackLock.ownerId
      && r.space.stackLock.entry.queue == s.stackLock.entry.queue + [caller]
    ensures r.NoStack? ==>
      && NumClear(s.stacks) == 0
      && r.space == s.(stackLock := r.space.stackLock)
      && r.space.stackLock.ownerId == caller
    ensures r.Started? ==>
      var g := GetStackPointer(s);
      && g.sp != -1
      && r.sp == g.sp
      && r.space == g.space.(stackLock := Release(Acquire(s.stackLock, caller).state, caller))
    ensures r.Started? && s.stackLock == NewLock() ==> r.space.stackLock == NewLock()
  {
    match Acquire(s.stackLock, caller)
    case Sleeps(l) => StackBusy(tid, s.(stackLock := l))
    case Proceeds(l) =>
      var g := GetStackPointer(s.(stackLock := l));
      if g.sp == -1 then NoStack(tid, g.space)
      else Started(tid, g.sp, g.space.(stackLock := Release(l, caller)))
  }

  /**
   * do_UserThreadCreate. With max_threads threads already counted once the
   * new one is added, it fails with -1 and changes nothing. Otherwise the
   * next id from GetNextThreadID is registered in the table, and the stack
   * half runs.
   */
  function Create(s: Space, caller: Tid): (r: Creation)
    requires SpaceValid(s)
    ensures r.Rejected? <==> |s.threads| + 1 > s.maxThreads
    ensures r.Rejected? ==> r.space == s
    ensures !r.Rejected? ==>
      var registered := AddThread(GetNextThreadID(s).space, s.counter);
      && r.tid == s.counter
      && r.tid in r.space.threads
      && r.space.threads == registered.threads
      && r.space.counter == s.counter + 1
      && r == CreateStack(registered, caller, s.counter)
    ensures SpaceValid(r.space)
  {
    var held := Acquire(s.tableLock, caller).state;
    if |s.threads| + 1 > s.maxThreads then
      Rejected(s.(tableLock := Release(held, caller)))
    else
      var issued := GetNextThreadID(s.(tableLock := held));
      var registered := AddThread(issued.space, issued.id);
      CreateStack(registered.(tableLock := Release(held, caller)), caller, issued.id)
  }

  /** A successful create returns the id it registered, and the new thread starts at its function on its stack. */
  lemma CreateStartsThread(s: Space, caller: Tid, p: ThreadParams)
    requires SpaceValid(s)
    ensures var r := Create(s, caller);
      r.Started? ==>
        && CreateResult(r) == s.counter && s.counter in r.space.threads
        && StartRegisters(r.space, p, r.sp)(StackReg) == r.sp
        && StartRegisters(r.space, p, r.sp)(PCReg) == p.threadFunction
        && StackTop(s) - UserStackSize <= r.sp < StackTop(s)
  {
    var r := Create(s, caller);
    if r.Started? {
      var registered := AddThread(GetNextThreadID(s).space, s.counter);
      assert StackTop(registered) == StackTop(s);
    }
  }

  /** The stack-exhaustion path returns -1 but leaves the id registered and the stack lock held by the caller. */
  lemma NoStackLeaks(s: Space, caller: Tid)
    requires SpaceValid(s) && s.stackLock == NewLock()
    requires |s.threads| + 1 <= s.maxThreads && NumClear(s.stacks) == 0
    ensures Create(s, caller).NoStack?
    ensures CreateResult(Create(s, caller)) == -1
    ensures s.counter in Create(s, caller).space.threads
    ensures Create(s, caller).space.stackLock.ownerId == caller
  {
  }

  // ---------------------------------------------------------------------
  // Exit
  // ---------------------------------------------------------------------

  /** What do_UserThreadExit did before the thread finished. */
  datatype Exit =
    | Exited(space: Space)         // the thread's id and stack slot are freed
    | ExitStackBusy(space: Space)  // the caller sleeps on the stack lock

  /**
   * A process's main thread runs on stack pointer 0. Once the space holds
   * more than UserThreadMax stacks' worth of bytes, the slot computed from
   * that pointer lies past the stack bitmap, outside what ExitStack covers.
   */
  lemma MainThreadSlotPastStacks(s: Space)
    requires StackTop(s) >= (UserThreadMax + 1) * UserThreadStackSize
    ensures SlotOf(s, 0) >= UserThreadMax
  {
    var top := StackTop(s);
    var q := top / UserThreadStackSize;
    MulStep(UserThreadMax + 1, q, UserThreadStackSize);
  }

  /**
   * The stack half of do_UserThreadExit, also what the caller runs again
   * when woken on the stack lock: free the slot of the caller's stack
   * pointer under the stack lock.
   */
  function ExitStack(s: Space, caller: Tid, sp: int): (r: Exit)
    requires SpaceValid(s)
    requires 0 <= SlotOf(s, sp) < UserThreadMax
    ensures r.ExitStackBusy? <==> s.stackLock.ownerId != NoOwner
    ensures r.ExitStackBusy? ==>
      && r.space == s.(stackLock := r.space.stackLock)
      && r.space.stackLock.entry.queue == s.stackLock.entry.queue + [caller]
    ensures r.Exited? ==>
      && r.space.stacks.bits == s.stacks.bits[SlotOf(s, sp) := false]
      && r.space == s.(stacks := r.space.stacks, stackLock := r.space.stackLock)
    ensures r.Exited? && s.stackLock == NewLock() ==> r.space.stackLock == NewLock()
    ensures SpaceValid(r.space)
  {
    match Acquire(s.stackLock, caller)
    case Sleeps(l) => ExitStackBusy(s.(stackLock := l))
    case Proceeds(l) =>
      var freed := RemoveStackPointer(s.(stackLock := l), sp);
      Exited(freed.(stackLock := Release(l, caller)))
  }

  /**
   * The table half of do_UserThreadExit: under the table lock the caller's
   * id leaves the live table, which wakes its joiners and the exit waiters.
   * Join conditions are indexed by thread id, so the id must be below
   * UserThreadMax.
   */
  function ExitTable(s: Space, caller: Tid): (r: Space)
    requires SpaceValid(s)
    requires caller in s.threads ==> caller < UserThreadMax
    ensures SpaceValid(r)
    ensures caller !in r.threads
    ensures caller in s.threads ==> r.threads == RemoveAt(s.threads, IndexOf(s.threads, caller))
    ensures caller !in s.threads ==> r == s
    ensures caller in s.threads ==> r.joinConds[caller].waiting == 0 && r.exitCond.waiting == 0
    ensures caller in s.threads ==>
      r.joinConds[caller].sleep.value == s.joinConds[caller].sleep.value + s.joinConds[caller].waiting
    ensures r == s.(threads := r.threads, joinConds := r.joinConds, exitCond := r.exitCond)
  {
    AcquireReleaseIdle(caller);
    var removed := RemoveThread(s.(tableLock := Held(caller)), caller, caller);
    assert NoDuplicates(removed.threads) && caller !in removed.threads by {
      if caller in s.threads {
        RemoveAtNoDuplicates(s.threads, IndexOf(s.threads, caller));
      }
    }
    removed.(tableLock := Release(removed.tableLock, caller))
  }

  /**
   * do_UserThreadExit, by the thread `caller` running on stack pointer sp:
   * its id leaves the live table, then its stack slot is freed.
   */
  function ExitThread(s: Space, caller: Tid, sp: int): (r: Exit)
    requires SpaceValid(s)
    requires caller in s.threads ==> caller < UserThreadMax
    requires 0 <= SlotOf(s, sp) < UserThreadMax
    ensures SpaceValid(r.space)
    ensures caller !in r.space.threads
    ensures r.space.threads == ExitTable(s, caller).threads
    ensures r.Exited? ==> r.space.stacks.bits == s.stacks.bits[SlotOf(s, sp) := false]
    ensures r.ExitStackBusy? ==> r.space.stacks == s.stacks
    ensures r.space == s.(threads := r.space.threads, joinConds := r.space.joinConds,
                          exitCond := r.space.exitCond, stacks := r.space.stacks,
                          stackLock := r.space.stackLock)
  {
    var t := ExitTable(s, caller);
    assert t.numPages == s.numPages;
    SameSlots(s, t, sp);
    ExitStack(t, caller, sp)
  }

  // ---------------------------------------------------------------------
  // Join
  // ---------------------------------------------------------------------

  /** What do_UserThreadJoin did: returned a value, or sleeps on the join condition. */
  datatype Joining = JoinReturns(value: int, space: Space) | JoinSleeps(space: Space)

  /** Whether t names a live thread other than the caller. */
  predicate Joinable(s: Space, caller: Tid, t: int)
  {
    t != caller && t >= 0 && t in s.threads
  }

  /**
   * do_UserThreadJoin(t). Joining oneself or a thread that is not live
   * returns -1 at once. Otherwise the caller takes the table lock and waits
   * on t's join condition, which, t being live, always puts it to sleep
   * with the lock released. Join conditions are indexed by thread id.
   */
  function Join(s: Space, caller: Tid, t: int): (r: Joining)
    requires SpaceValid(s)
    requires Joinable(s, caller, t) ==> t < UserThreadMax
    ensures r.JoinReturns? <==> !Joinable(s, caller, t)
    ensures r.JoinReturns? ==> r.value == -1 && r.space == s
    ensures r.JoinSleeps? ==>
      && r.space == s.(joinConds := r.space.joinConds)
      && |r.space.joinConds| == |s.joinConds|
      && (forall k :: 0 <= k < |s.joinConds| && k != t ==> r.space.joinConds[k] == s.joinConds[k])
      && r.space.joinConds[t].sleep.queue == s.joinConds[t].sleep.queue + [caller]
      && r.space.joinConds[t].sleep.value == 0
      && r.space.joinConds[t].waiting == s.joinConds[t].waiting + s.joinConds[t].sleep.value + 1
    ensures SpaceValid(r.space)
  {
    if !Joinable(s, caller, t) then JoinReturns(-1, s)
    else
      AcquireReleaseIdle(caller);
      var m := WaitWhile(s.joinConds[t], Held(caller), caller, HasThread(s, t));
      JoinSleeps(s.(joinConds := s.joinConds[t := m.cond], tableLock := m.lock))
  }

  /**
   * What a joiner woken from t's join condition runs: the rest of Wait and
   * the loop test. It returns 0 only when t is no longer live; otherwise it
   * sleeps again.
   */
  function JoinResume(s: Space, caller: Tid, t: Tid): (r: Joining)
    requires SpaceValid(s) && t < UserThreadMax
    ensures r.JoinReturns? ==> r.value == 0 && t !in s.threads
    ensures r.JoinReturns? <==> s.joinConds[t].sleep.value > 0 && t !in s.threads
    ensures r.space == s.(joinConds := r.space.joinConds)
    ensures SpaceValid(r.space)
  {
    var m := ResumeWhile(s.joinConds[t], s.tableLock, caller, HasThread(s, t));
    var s' := s.(joinConds := s.joinConds[t := m.cond], tableLock := m.lock);
    if m.phase == Returned then JoinReturns(0, s') else JoinSleeps(s')
  }

  /**
   * Once the joined thread exits, a joiner counted on its condition is
   * woken and its resumption returns 0.
   */
  lemma ExitReleasesJoiner(s: Space, t: Tid, joiner: Tid)
    requires SpaceValid(s)
    requires t in s.threads && t < UserThreadMax
    requires s.joinConds[t].waiting > 0
    ensures var after := ExitTable(s, t);
      JoinResume(after, joiner, t).JoinReturns? && JoinResume(after, joiner, t).value == 0
  {
  }

  /**
   * Thread ids are never reused and only the number of live threads is
   * capped, so once the counter reaches UserThreadMax an accepted create
   * registers a live thread whose id has no join condition. Its exit and
   * any join on it fall outside ExitTable, Join and JoinResume.
   */
  lemma CreatedIdPastJoinConditions(s: Space, caller: Tid)
    requires SpaceValid(s) && s.counter >= UserThreadMax
    ensures var r := Create(s, caller);
      !r.Rejected? ==> r.tid in r.space.threads && r.tid >= |r.space.joinConds|
  {
  }
}
